=== FILE: README.md ===
# Ticket lifecycle of GerenciaTickets, modelled in Dafny

GerenciaTickets is a help-desk system. A Laravel API (`chamados/`) stores
support tickets. A React Native client (`chamados-app/`) lets users open,
edit, move and delete them. This project models the ticket lifecycle kernel
on both sides:

- **Enumerations.** `TicketStatus` (ABERTO, EM_ANDAMENTO, RESOLVIDO) and
  `TicketPrioridade` (BAIXA, MEDIA, ALTA), with backing values, labels and the
  `tryFrom`/`from` parsers (module `Enums`).
- **Records and the store.** Tickets, status-change log entries, the "ticket
  resolved" notification, and the store invariant every endpoint keeps
  (module `Domain`):
  - ids match positions;
  - `resolved_at` is set exactly while the ticket is RESOLVIDO;
  - each ticket's log replays its status history from ABERTO.
- **`TicketPolicy`** (module `Policy`).
- **`TicketService`** (module `Service`): create, partial update with the
  assignee guard, soft delete, and the transactional status change. The
  status change writes one log entry and, on RESOLVIDO, queues a
  notification. The transaction commits all its writes or none.
- **`TicketService::list`** (module `Listing`): the non-empty filters combined
  by conjunction, the `LIKE %busca%` search, newest-first ordering and
  pagination.
- **The two form requests** `UpdateTicketRequest` and
  `UpdateTicketStatusRequest` (module `Requests`).
- **`TicketController`** (module `Controller`): each endpoint as one request
  against the store, with the framework's order of checks:
  1. route model binding (404);
  2. the form request's `authorize` (403);
  3. its rules (422);
  4. the policy (403);
  5. the service call.
- **Client mirrors:**
  - the option and label tables (`ClientConstants`);
  - the `useResponsive` breakpoints (`Responsive`);
  - the create/edit screen's pre-submit checks and payload (`TicketForm`);
  - the registration screen's checks (`RegisterForm`);
  - the detail screen's button flags, status picker and edit prefill
    (`TicketDetail`).
- **The feature tests' status and delete scenarios,** stated for every store
  they can start from (`Scenarios`).

The clock is a parameter `now`. A persistence failure inside the status
transaction is a parameter `failAt`: the index of the write that raises.

Two properties connect the client to the server:

- The detail screen shows its buttons exactly when the policy would allow the
  call (`TicketDetail.CapabilitiesMirrorPolicy`).
- A form the create/edit screen lets through passes the server's update
  request, for any user (`TicketForm.SubmittedEditPassesServer`).

Behaviour of the code worth noting:

- **Notification inside the transaction.** The resolution notification is
  sent inside `DB::transaction`, not after it
  (`chamados/app/Services/TicketService.php:80-83`). It is therefore the last
  write of the transaction. A failure before it rolls everything back and
  sends nothing.
- **No transition graph.** Any status may follow any other, and a request
  that repeats the current status still writes a log entry
  (`Controller.ChangeStatusLogsOnce`).
- **All-or-nothing assignee gate.** A non-admin who sends `responsavel_id`
  at all, even as null, is refused with 403 by `UpdateTicketRequest::authorize`.
  The whole update is refused, not just that field
  (`Controller.NonAdminAssigneeRejectsWholeUpdate`). The service's own guard
  would only drop a non-null value, and on its own would let a non-admin
  clear the assignee (`Service.Update`, with a concrete store in
  `Controller.ServiceGuardAloneLetsNonAdminClearAssignee`).
  The endpoint never reaches it with that key.
- **`empty()` in the filters.** The listing filters use PHP `empty()`, so a
  filter value of `"0"` is ignored like an empty one.
- **`undefined === undefined`.** In the client's `isOwnerOrAdmin`, a missing
  signed-in user matches a ticket whose requester is missing
  (`TicketDetail.MissingUserMatchesMissingRequester`). This follows from
  JavaScript's `===`. The screen is only reachable when signed in, so this
  is recorded as behaviour, not as a defect.

## Model

Some members are plain transcriptions of one-line source functions with no
contract of their own. The lemma rows stand for them:

- the policy abilities `Policy.ViewAny`, `View`, `Create`, `Update`,
  `UpdateStatus` and `Delete` (`chamados/app/Policies/TicketPolicy.php:13-56`), through
  `Policy.OpenAbilities`, `MutatingAbilitiesAgree`, `StrangerDenied` and
  `OwnerAndAdminAllowed`;
- the labels `Enums.StatusLabel` and `PriorityLabel`, through
  `Enums.StatusLabelsDistinct`, `PriorityLabelsDistinct` and the client
  label lemmas;
- `Requests.AuthorizeStatus` (always true), through `Controller.ChangeStatus`;
- the rule predicates `Requests.TituloOk`, `DescricaoOk`, `PrioridadeOk` and
  `ResponsavelOk`, through `Requests.ValidateUpdate`.

| member | source | states |
|---|---|---|
| `Enums.StatusValue` | chamados/app/Enums/TicketStatus.php:5-9 | each status's backing string parses back to the same case |
| `Enums.StatusTryFrom` | chamados/app/Enums/TicketStatus.php:5-9 | exactly the three strings ABERTO, EM_ANDAMENTO, RESOLVIDO name a status |
| `Enums.StatusFrom` | chamados/app/Enums/TicketStatus.php:5-9 | `from` succeeds with the case whose value is the input, and fails exactly when no case has that value |
| `Enums.PriorityValue` | chamados/app/Enums/TicketPrioridade.php:5-9 | each priority's backing string parses back to the same case |
| `Enums.PriorityTryFrom` | chamados/app/Enums/TicketPrioridade.php:5-9 | exactly BAIXA, MEDIA, ALTA name a priority |
| `Enums.PriorityFrom` | chamados/app/Enums/TicketPrioridade.php:5-9 | `from` succeeds with the matching case and fails exactly when no case has that value |
| `Enums.StatusValueInjective` | chamados/app/Enums/TicketStatus.php:7-9 | distinct statuses have distinct backing values |
| `Enums.PriorityValueInjective` | chamados/app/Enums/TicketPrioridade.php:7-9 | distinct priorities have distinct backing values |
| `Enums.StatusLabelsDistinct` | chamados/app/Enums/TicketStatus.php:11-18 | a status label identifies its status |
| `Enums.PriorityLabelsDistinct` | chamados/app/Enums/TicketPrioridade.php:11-18 | a priority label identifies its priority |
| `Domain.Find` | chamados/app/Http/Controllers/Api/TicketController.php:61-68 | route binding yields the ticket exactly when it exists and is not soft-deleted, else 404 |
| `Domain.LogsOf` | chamados/app/Models/Ticket.php:46-49 | a ticket's log holds only entries of that ticket, never more than the table has |
| `Domain.LogsOfExactly` | chamados/app/Models/Ticket.php:46-49 | an entry is in a ticket's log exactly when it is in the table and refers to that ticket |
| `Domain.EmptyStoreValid` | chamados/app/Services/TicketService.php:38-44 | the empty store satisfies the lifecycle invariant |
| `Domain.LogsOfAppend` | chamados/app/Services/TicketService.php:72-78 | inserting a log entry extends exactly its own ticket's history |
| `Domain.StatusFromHistory` | chamados/app/Services/TicketService.php:57-87 | in a valid store a ticket's status is the target of its latest log entry, or ABERTO with no entries |
| `Text.ContainsIffOccurs` | chamados/app/Services/TicketService.php:27-33 | the search matches exactly when the term occurs at some position of the text |
| `Text.EmptyNeedleAlwaysContained` | chamados/app/Services/TicketService.php:30-31 | `LIKE %%` matches every text |
| `Text.SkipSpace` | chamados-app/src/screens/TicketCreateScreen.js:29 | finds the first position that is not white space, with only white space skipped before it |
| `Text.SkipSpaceBack` | chamados-app/src/screens/TicketCreateScreen.js:29 | finds where the text ends once trailing white space is dropped, with only white space dropped |
| `Text.Trim` | chamados-app/src/screens/TicketCreateScreen.js:29-37 | `trim` returns a slice of the input with only white space cut at both ends and none left at either end |
| `Text.TrimIdempotent` | chamados-app/src/screens/TicketCreateScreen.js:44-48 | trimming a trimmed value changes nothing |
| `Text.TrimEmptyIffAllSpace` | chamados-app/src/screens/RegisterScreen.js:24 | a value trims to empty exactly when it is all white space |
| `Policy.OpenAbilities` | chamados/app/Policies/TicketPolicy.php:13-32 | listing, viewing and creating are allowed to every authenticated user |
| `Policy.MutatingAbilitiesAgree` | chamados/app/Policies/TicketPolicy.php:37-56 | update, updateStatus and delete are the same requester-or-admin rule |
| `Policy.StrangerDenied` | chamados/app/Policies/TicketPolicy.php:37-56 | a non-admin who is not the requester may not mutate the ticket |
| `Policy.OwnerAndAdminAllowed` | chamados/app/Policies/TicketPolicy.php:37-56 | the requester and any admin may mutate the ticket |
| `Service.Saved` | chamados/app/Services/TicketService.php:53 | a save changes only the given attributes and moves updated_at only when something changed |
| `Service.Transaction` | chamados/app/Services/TicketService.php:59-86 | a transaction either commits all its writes or, when one raises, leaves the store as it was and sends nothing |
| `Service.StampResolvedAt` | chamados/app/Services/TicketService.php:62-68 | resolved_at is stamped on RESOLVIDO, cleared when leaving RESOLVIDO, kept otherwise, and stays set exactly while RESOLVIDO |
| `Service.UpdateStatus` | chamados/app/Services/TicketService.php:57-87 | sets the status, applies the resolved_at rule, moves updated_at to now exactly when an attribute changed (a repeated non-RESOLVIDO status keeps it), changes nothing else, appends exactly one log entry (previous status, new status, actor) and notifies the requester iff RESOLVIDO; all or nothing |
| `Service.Create` | chamados/app/Services/TicketService.php:38-44 | the new ticket is ABERTO, unresolved, owned by the creator whatever the data says, gets the next id, and no log entry is written |
| `Service.GuardAssignee` | chamados/app/Services/TicketService.php:48-51 | a non-null assignee from a non-admin is dropped rather than turned into a null; every other field and an explicit null are kept |
| `Service.Update` | chamados/app/Services/TicketService.php:46-55 | sent fields are applied and unsent ones kept, an explicit null assignee from anyone included; a non-admin's non-null assignee leaves the assignee as it was; updated_at moves to now exactly when something changed; status, resolved_at, requester and the log never change |
| `Service.Delete` | chamados/app/Services/TicketService.php:89-92 | the ticket is soft-deleted with deleted_at and updated_at both set to now; no other field, ticket or log entry changes |
| `Service.CreatePreservesValid` | chamados/app/Services/TicketService.php:38-44 | creation keeps the lifecycle invariant |
| `Service.ChainsAfterTransition` | chamados/app/Services/TicketService.php:70-78 | moving a ticket and logging that move keeps every ticket's history a replay of its status |
| `Service.ChainAfterTransitionAt` | chamados/app/Services/TicketService.php:70-78 | after the log insert, the moved ticket's history ends at its new status and every other ticket's history still ends at its status |
| `Service.StatusChangeKeepsTickets` | chamados/app/Services/TicketService.php:62-70 | a committed status change keeps ids in place and resolved_at set exactly while RESOLVIDO |
| `Service.StatusChangeKeepsLogs` | chamados/app/Services/TicketService.php:72-78 | a committed status change keeps log ids numbered and every entry pointing at an existing ticket |
| `Service.UpdateStatusPreservesValid` | chamados/app/Services/TicketService.php:57-87 | a status change, committed or rolled back, keeps the lifecycle invariant |
| `Service.UpdatePreservesValid` | chamados/app/Services/TicketService.php:46-55 | a field update keeps the lifecycle invariant |
| `Service.DeletePreservesValid` | chamados/app/Services/TicketService.php:89-92 | a soft delete keeps the lifecycle invariant |
| `Listing.Clauses` | chamados/app/Services/TicketService.php:19-33 | at most one clause per filter |
| `Listing.Where` | chamados/app/Services/TicketService.php:20 | a `where` keeps exactly the rows that satisfy its clause |
| `Listing.WhereAll` | chamados/app/Services/TicketService.php:19-33 | the chained `where`s keep exactly the rows that satisfy every clause |
| `Listing.LiveRows` | chamados/app/Models/Ticket.php:15 | the soft-delete scope keeps exactly the rows without a deletion stamp |
| `Listing.HeadIsNewest` | chamados/app/Services/TicketService.php:35 | the first row of a newest-first list is at least as new as every row |
| `Listing.KeepHeadFirst` | chamados/app/Services/TicketService.php:35 | a row older than the head, placed among the rows after it in order, leaves the whole list newest first |
| `Listing.Insert` | chamados/app/Services/TicketService.php:35 | inserting into a newest-first list keeps it newest first and adds exactly that row |
| `Listing.OrderNewestFirst` | chamados/app/Services/TicketService.php:35 | the order is newest created first and is a permutation of the matching rows |
| `Listing.PageSize` | chamados/app/Services/TicketService.php:35 | the page size is the given size when it is at least 1, and 15 when none is given (`Controller.PerPage` passes "" and "0" on as none) |
| `Listing.CurrentPage` | chamados/app/Services/TicketService.php:35 | the page is the requested one when it is at least 1, and 1 when it is missing or below 1 |
| `Listing.Window` | chamados/app/Services/TicketService.php:35 | a page is the slice of at most per_page rows starting at the offset, empty past the end, and stays newest first |
| `Listing.ClausesMeanSelected` | chamados/app/Services/TicketService.php:19-33 | passing the built clauses is the same as passing every non-empty filter |
| `Listing.QuerySelectsExactly` | chamados/app/Services/TicketService.php:15-35 | a ticket is listed exactly when it is live and passes every non-empty filter, newest first |
| `Listing.List` | chamados/app/Services/TicketService.php:15-36 | each page holds only live matching tickets, newest first, at most per_page of them, is the right slice of all matches, is empty past the last match, and total counts every match |
| `Requests.AuthorizeUpdate` | chamados/app/Http/Requests/UpdateTicketRequest.php:12-19 | refused exactly when a non-admin sends the key responsavel_id |
| `Requests.ValidateUpdate` | chamados/app/Http/Requests/UpdateTicketRequest.php:21-29 | fails exactly when a sent field breaks its rule; otherwise passes on exactly the ruled keys that were sent, with their values: a null assignee stays null and a sent id becomes that user id |
| `Requests.EmptyUpdateIsValid` | chamados/app/Http/Requests/UpdateTicketRequest.php:24-27 | a body without any ruled key validates to an update of nothing |
| `Requests.ValidateStatus` | chamados/app/Http/Requests/UpdateTicketStatusRequest.php:16-21 | passes exactly a sent status that names a case, which `from` then converts; a missing status is a 422 on that field |
| `Requests.UnknownStatusRefused` | chamados/app/Http/Requests/UpdateTicketStatusRequest.php:19 | any other string is refused |
| `Controller.OnlyFilters` | chamados/app/Http/Controllers/Api/TicketController.php:31 | the listing sees exactly the four filter keys that were sent, with the page size `Controller.PerPage` reads |
| `Controller.PerPage` | chamados/app/Services/TicketService.php:35 | a missing, "" or "0" per_page falls back to the default; a positive decimal is that size; any other spelling of zero is a 500 from the paginator's division |
| `Controller.PerPageExamples` | chamados/app/Services/TicketService.php:35 | "0" lists 15 rows, "00" fails with 500, and "07" lists 7 rows |
| `Controller.Index` | chamados/app/Http/Controllers/Api/TicketController.php:27-35 | listing answers 200 with the service's page for the query's filters and `page`, except a 500 exactly when per_page is a zero other than "0"; it writes nothing |
| `Controller.IndexIgnoresOtherKeys` | chamados/app/Http/Controllers/Api/TicketController.php:31 | query keys other than the four filters and `page` do not change the answer |
| `Controller.PageParam` | chamados/app/Services/TicketService.php:35 | the paginator reads `page` as an integer only when it is an optional sign followed by "0" or digits without a leading zero |
| `Controller.PageParamExamples` | chamados/app/Services/TicketService.php:35 | "2" and "+2" are page 2; "abc", "2.5" and "02" are not integers, and they and "-2" resolve to page 1 |
| `Controller.PageParamOfShown` | chamados/app/Services/TicketService.php:35 | a page number written in decimal is read back as that page |
| `Controller.QueryPage` | chamados/app/Services/TicketService.php:35 | the page is taken from the query's `page` key, and is absent when that key is |
| `Requests.DecimalNat` | chamados/app/Http/Controllers/Api/TicketController.php:31 | a value is read as a number exactly when it is a non-empty run of decimal digits |
| `Requests.DecimalNatOfShown` | chamados/app/Services/TicketService.php:35 | reading a number's decimal spelling gives the number back |
| `Controller.StoreTicket` | chamados/app/Http/Controllers/Api/TicketController.php:41-55 | answers 201 with a new ABERTO ticket owned by the caller, appended to the table |
| `Controller.Show` | chamados/app/Http/Controllers/Api/TicketController.php:61-68 | answers 200 with the live ticket and its log history, 404 otherwise, and writes nothing |
| `Controller.UpdateTicket` | chamados/app/Http/Controllers/Api/TicketController.php:74-82 | 404 for a missing ticket, then 403 from the assignee gate, then the rules' 422, then 403 from the policy; succeeds exactly when all pass and then applies the service update; any failure changes nothing |
| `Controller.NonAdminAssigneeRejectsWholeUpdate` | chamados/app/Http/Requests/UpdateTicketRequest.php:15-17 | a non-admin sending responsavel_id gets 403 and nothing changes |
| `Controller.NonAdminNeverChangesAssignee` | chamados/app/Http/Controllers/Api/TicketController.php:74-82 | through the endpoint a non-admin never changes any ticket's assignee |
| `Controller.ServiceGuardAloneLetsNonAdminClearAssignee` | chamados/app/Services/TicketService.php:48-51 | the service guard alone lets a non-admin clear the assignee with an explicit null |
| `Controller.Destroy` | chamados/app/Http/Controllers/Api/TicketController.php:88-97 | 404 for a missing ticket; succeeds exactly for a live ticket and a requester or admin, then soft-deletes it; a stranger gets 403 and nothing changes |
| `Controller.ChangeStatus` | chamados/app/Http/Controllers/Api/TicketController.php:103-118 | 404 for a missing ticket, then the status rules' 422, then 403 from the policy; succeeds exactly when the ticket is live, the status is valid, the policy allows and the transaction commits; answers with the refreshed ticket and its history; any failure changes nothing |
| `Controller.MutationImpliesAuthorized` | chamados/app/Http/Controllers/Api/TicketController.php:74-118 | a non-requester non-admin cannot change the store or queue a notice through any mutating endpoint |
| `Controller.ChangeStatusLogsOnce` | chamados/app/Services/TicketService.php:72-83 | a successful status change appends exactly one log entry from the old to the new status by the caller, and queues a notice exactly when resolving |
| `Controller.EndpointsPreserveValid` | chamados/app/Http/Controllers/Api/TicketController.php:41-118 | every mutating endpoint keeps the lifecycle invariant |
| `ClientConstants.StatusLabelsAgree` | chamados-app/src/utils/constants.js:27-31 | the client's status labels are keyed by the backing values and equal the server's labels |
| `ClientConstants.PrioridadeLabelsAgree` | chamados-app/src/utils/constants.js:33-37 | the client's priority labels are keyed by the backing values and equal the server's labels |
| `ClientConstants.StatusOptionsAgree` | chamados-app/src/utils/constants.js:1-6 | after the "Todos" sentinel the status options are the three cases in order with the server's labels |
| `ClientConstants.PrioridadeOptionsAgree` | chamados-app/src/utils/constants.js:8-13 | after the "Todas" sentinel the priority options are the three cases in order with the server's labels |
| `Responsive.Classify` | chamados-app/src/hooks/useResponsive.js:13-16 | exactly one of mobile, tablet and desktop holds; large desktop implies desktop; the thresholds are 600, 900 and 1200 |
| `Responsive.ResponsiveValue` | chamados-app/src/hooks/useResponsive.js:20-24 | desktop takes the first given of desktop, tablet and mobile, tablet the first given of tablet and mobile, mobile its own value; never a larger breakpoint's value |
| `Responsive.ResponsiveValueIsFirstGiven` | chamados-app/src/hooks/useResponsive.js:20-24 | the picker returns the first given value in the breakpoint's fallback list, desktop then tablet then mobile |
| `Responsive.ResponsiveValueOfOwnBreakpoint` | chamados-app/src/hooks/useResponsive.js:20-24 | with all three values given, the current breakpoint's value is chosen |
| `TicketForm.InitialForm` | chamados-app/src/screens/TicketCreateScreen.js:20-22 | a new ticket starts empty with priority MEDIA; editing starts from the ticket's fields; the priority is never empty |
| `TicketForm.Submit` | chamados-app/src/screens/TicketCreateScreen.js:28-56 | the first failing check decides the message and nothing is sent; otherwise the trimmed title and description go to update when editing and to create otherwise |
| `TicketForm.PayloadBody` | chamados-app/src/screens/TicketCreateScreen.js:44-48 | the body carries exactly titulo, descricao and prioridade |
| `TicketForm.SubmittedEditPassesServer` | chamados-app/src/screens/TicketCreateScreen.js:44-51 | a form the screen lets through, with one of the offered priorities, passes the server's assignee gate and rules for any user |
| `TicketForm.ResubmitIsStable` | chamados-app/src/screens/TicketCreateScreen.js:44-48 | submitting the sent payload's own values again sends the same request |
| `TicketForm.BlankTitleRefused` | chamados-app/src/screens/TicketCreateScreen.js:29-32 | a title of white space only is refused with the minimum-length message |
| `RegisterForm.HandleRegister` | chamados-app/src/screens/RegisterScreen.js:23-39 | registration is called exactly when all four fields are non-blank, the passwords match as typed and have at least 8 characters; each failure gives its own message in check order; name and email are sent trimmed |
| `RegisterForm.BlankFieldRefused` | chamados-app/src/screens/RegisterScreen.js:24-27 | a field of white space only counts as missing |
| `RegisterForm.TrailingSpaceIsMismatch` | chamados-app/src/screens/RegisterScreen.js:28-31 | passwords are compared untrimmed, so a trailing space is a mismatch |
| `TicketDetail.IsOwnerOrAdmin` | chamados-app/src/screens/TicketDetailScreen.js:34 | the flag is false while no ticket is loaded |
| `TicketDetail.CapabilitiesOf` | chamados-app/src/screens/TicketDetailScreen.js:35-37 | edit, status change and delete are offered together or not at all |
| `TicketDetail.CapabilitiesMirrorPolicy` | chamados-app/src/screens/TicketDetailScreen.js:34-37 | for a signed-in user and a ticket from the API, each button is shown exactly when the server's policy allows that call |
| `TicketDetail.MissingUserMatchesMissingRequester` | chamados-app/src/screens/TicketDetailScreen.js:34 | with nobody signed in, the flag holds exactly for a ticket without a requester |
| `TicketDetail.KeepChoices` | chamados-app/src/screens/TicketDetailScreen.js:38 | the picker keeps exactly the options with a value other than the current status |
| `TicketDetail.StatusChoicesForStatus` | chamados-app/src/screens/TicketDetailScreen.js:38 | for a known status the picker offers exactly the two other statuses, in declaration order |
| `TicketDetail.StatusChoicesAreTransitions` | chamados-app/src/screens/TicketDetailScreen.js:38 | every offered status names a status case and differs from the current one |
| `TicketDetail.ChosenStatusAccepted` | chamados/app/Http/Requests/UpdateTicketStatusRequest.php:16-21 | a body carrying a status case's value passes the status request with that value |
| `TicketDetail.StatusChoicesWithoutTicket` | chamados-app/src/screens/TicketDetailScreen.js:38 | with no ticket loaded, all three statuses are offered |
| `TicketDetail.UntouchedEditIsNoOp` | chamados-app/src/screens/TicketDetailScreen.js:67-70 | saving the prefilled edit form untouched passes the assignee gate for anyone and, once valid, leaves the store unchanged, updated_at included |
| `Scenarios.FirstStep` | chamados/tests/Feature/TicketApiTest.php:53-72 | the requester's ABERTO to EM_ANDAMENTO answers 200, logs that move, and leaves resolved_at empty |
| `Scenarios.ResolveStep` | chamados/tests/Feature/TicketApiTest.php:74-93 | the requester's EM_ANDAMENTO to RESOLVIDO answers 200, logs that move, stamps resolved_at and notifies the requester |
| `Scenarios.StatusLifecycle` | chamados/tests/Feature/TicketApiTest.php:44-97 | the two moves in a row add exactly two entries, in order, to the ticket's history |
| `Scenarios.StrangerCannotDelete` | chamados/tests/Feature/TicketApiTest.php:142-146 | a user who is neither requester nor admin gets 403 on delete and the ticket stays |

## Left out

- Authentication (the `auth:sanctum` middleware and its 401 answer) is not modelled; every request comes from an authenticated `User`.
- `StoreTicketRequest` is not part of this model. `Controller.StoreTicket` takes the validated creation data as given, so the creation rules and their 422 answer are left out.
- `User.php` is not part of this model. `Domain.IsAdmin` assumes `isAdmin()` means the role column is "admin".
- `UserResource`, `TicketLogResource` and the JSON shape of answers are left out. Answers carry the model's records, and `TicketDetail.Shown` stands for the ticket as the client receives it.
- The framework's input middleware (trimming strings and turning empty strings into null before validation) is left out. Request bodies are taken as they reach validation.
- Validation errors are modelled as the list of failing field names. The Portuguese error messages of the form requests are left out.
- The `exists:users,id` rule is modelled as membership in a set `users` of existing ids. The database lookup itself is left out.
- String lengths are counted in characters on both sides. PHP's multibyte length and JavaScript's UTF-16 units are not distinguished.
- `Requests.ValidateUpdate`: a `responsavel_id` names a user when it is a non-negative JSON integer or a string of decimal digits. Other spellings the database might still compare equal to an id (a signed string, one with spaces or a decimal point, a float, a boolean) are refused with 422, because that comparison depends on the database engine.
- `Service.Create` assumes the validated creation data carries no `resolved_at`. `resolved_at` is fillable on the model and `create` does not override it, so an unresolved new ticket and `Service.CreatePreservesValid` rest on the creation request's rules, which are not part of this model.
- Requests are modelled one at a time. `updateStatus` reads the previous status from the model bound before the transaction, without locking the row (`chamados/app/Services/TicketService.php:59-60`). Two concurrent status requests can therefore both log the same `de`, so the log chain of `Domain.Valid` is guaranteed only while requests on a ticket are serialized.
- `Controller.PageParam`: the white space `filter_var` trims around the number, the bounds of PHP's integer range, and a `page` sent as an array are left out.
- `Controller.OnlyFilters`: a `per_page` that is not a plain decimal number (a word, "7.5", " 7") is treated as absent, because how the framework's paginator handles such strings is not modelled. The query is a map from keys to strings, so a filter key sent as an array (`?status[]=X`, handed as an array to `where`) is left out for all four filter keys.
- `Controller.PerPage`: the 500 for a zero page size spelled "00" comes from the framework's paginator, which is not part of the repository. It divides the total by the page size; the model records that division by zero as the error `ZeroPageSize`.
- The notification's delivery (mail or database channel, queueing) is left out. The model records the notice queued for the requester.
- The `logs` relation has no explicit order; the model lists a ticket's entries in insertion order.
- Clocks are the parameter `now`. The timestamp format (`toISOString`, `toLocaleString`) is left out.
- Rendering, navigation, loading flags, dialogs, the theme and the network calls of the client screens are left out. The screens' decisions are modelled as values; the HTTP round trip is the server model.
- The client's display of server error messages after a failed request is left out.
- `Responsive.Classify`: the window width is an integer, and the `Xl` breakpoint (1536) is declared but used by no flag, as in the hook.
- `TicketDetail.IsOwnerOrAdmin` states only that the flag needs a loaded ticket. Its meaning is stated against the server's policy by `TicketDetail.CapabilitiesMirrorPolicy` and `TicketDetail.MissingUserMatchesMissingRequester`.
- Listing's `LIKE` is modelled as case-sensitive substring containment. The database collation's case and accent folding, and `%`/`_` inside the search term acting as wildcards, are left out.
- The `=` filters on `status` and `prioridade` are modelled as exact string equality. The collation's case and accent folding, which applies to them as to `LIKE`, is left out.
- `Listing.OrderNewestFirst` keeps tickets with equal `created_at` in insertion order. SQL leaves the order of such ties unspecified, also from one page to the next.

=== FILE: client_constants.dfy ===
/**
 * The client's option lists and label tables, and their agreement with the
 * backend's enumerations.
 */
module ClientConstants {
  import opened Outcomes
  import opened Enums

  /** An entry of a picker: the value sent to the API and the label shown. */
  datatype OptionItem = OptionItem(value: string, text: string)

  /** `STATUS_OPTIONS`: the "Todos" sentinel with an empty value, then the three statuses. */
  const StatusOptions: seq<OptionItem> := [
    OptionItem("", "Todos"),
    OptionItem("ABERTO", "Aberto"),
    OptionItem("EM_ANDAMENTO", "Em Andamento"),
    OptionItem("RESOLVIDO", "Resolvido")
  ]

  /** `PRIORIDADE_OPTIONS`: the "Todas" sentinel, then the three priorities. */
  const PrioridadeOptions: seq<OptionItem> := [
    OptionItem("", "Todas"),
    OptionItem("BAIXA", "Baixa"),
    OptionItem("MEDIA", "M\U{E9}dia"),
    OptionItem("ALTA", "Alta")
  ]

  const StatusLabels: map<string, string> := map[
    "ABERTO" := "Aberto",
    "EM_ANDAMENTO" := "Em Andamento",
    "RESOLVIDO" := "Resolvido"
  ]

  const PrioridadeLabels: map<string, string> := map[
    "BAIXA" := "Baixa",
    "MEDIA" := "M\U{E9}dia",
    "ALTA" := "Alta"
  ]

  /** `STATUS_LABELS` is keyed by exactly the backing values and shows the server's labels. */
  lemma StatusLabelsAgree(s: Status)
    ensures StatusValue(s) in StatusLabels && StatusLabels[StatusValue(s)] == StatusLabel(s)
    ensures forall k :: k in StatusLabels ==> StatusTryFrom(k).Some?
  {
  }

  /** `PRIORIDADE_LABELS` is keyed by exactly the backing values and shows the server's labels. */
  lemma PrioridadeLabelsAgree(p: Priority)
    ensures PriorityValue(p) in PrioridadeLabels && PrioridadeLabels[PriorityValue(p)] == PriorityLabel(p)
    ensures forall k :: k in PrioridadeLabels ==> PriorityTryFrom(k).Some?
  {
  }

  /** Past the sentinel, the status options are the three cases in declaration order, with the server's labels. */
  lemma StatusOptionsAgree()
    ensures StatusOptions[1..] == [
      OptionItem(StatusValue(Aberto), StatusLabel(Aberto)),
      OptionItem(StatusValue(EmAndamento), StatusLabel(EmAndamento)),
      OptionItem(StatusValue(Resolvido), StatusLabel(Resolvido))]
  {
  }

  lemma PrioridadeOptionsAgree()
    ensures PrioridadeOptions[1..] == [
      OptionItem(PriorityValue(Baixa), PriorityLabel(Baixa)),
      OptionItem(PriorityValue(Media), PriorityLabel(Media)),
      OptionItem(PriorityValue(Alta), PriorityLabel(Alta))]
  {
  }
}

=== FILE: controller.dfy ===
/**
 * `TicketController`: each endpoint as one request against the store. Route
 * model binding comes first (404), then the form request's `authorize` (403)
 * and rules (422), then the policy (403), and only then the service. A
 * failed request leaves the store exactly as it was.
 */
module Controller {
  import opened Outcomes
  import opened Enums
  import opened Domain
  import Policy
  import Service
  import Listing
  import Requests

  datatype ReplyBody =
    | OneTicket(ticket: Ticket, logs: Option<seq<LogEntry>>)  // TicketResource, with the log history when loaded
    | Tickets(page: Listing.Page)                             // TicketResource::collection
    | Deleted                                                 // the deletion confirmation message

  datatype Reply = Reply(code: nat, body: ReplyBody)

  /** The store after the request, the notifications queued by it, and the answer. */
  datatype Response = Response(store: Store, outbox: seq<Notice>, result: Result<Reply, ApiError>)

  /** A request that ends in `e`: nothing is written and nothing is queued. */
  function Fail(st: Store, e: ApiError): (r: Response)
    ensures r.store == st && r.outbox == [] && r.result == Err(e)
  {
    Response(st, [], Err(e))
  }

  /** The HTTP status of the answer. */
  function Code(r: Response): nat
  {
    match r.result
    case Ok(reply) => reply.code
    case Err(e) => HttpStatus(e)
  }

  // ---------------------------------------------------------------------
  // index
  // ---------------------------------------------------------------------

  /**
   * The page size `paginate` receives from `$filters['per_page'] ?? 15`: the
   * query string itself, which the builder's `?:` replaces by the default only
   * when it is falsy ("" or "0"). A positive decimal is that size. Any other
   * spelling of zero ("00", "000") is truthy, reaches the paginator as zero
   * and makes it divide by zero.
   */
  function PerPage(query: map<string, string>): (r: Result<Option<nat>, ApiError>)
    ensures "per_page" !in query ==> r == Ok(None)
    ensures "per_page" in query && (query["per_page"] == "" || query["per_page"] == "0") ==> r == Ok(None)
    ensures r.Err? <==>
      "per_page" in query && query["per_page"] != "0" && Requests.DecimalNat(query["per_page"]) == Some(0)
    ensures r.Err? ==> r.error == ZeroPageSize
    ensures r.Ok? && r.value.Some? ==>
      "per_page" in query && r.value.value >= 1 && Requests.DecimalNat(query["per_page"]) == r.value
    ensures "per_page" in query && Requests.DecimalNat(query["per_page"]).Some? && Requests.DecimalNat(query["per_page"]).value >= 1 ==>
      r == Ok(Requests.DecimalNat(query["per_page"]))
  {
    if "per_page" !in query then Ok(None)
    else
      var s := query["per_page"];
      if s == "" || s == "0" then
        assert s == "0" ==> Requests.DecimalNat(s) == Some(0) by {
          assert "0"[..0] == [];
        }
        Ok(None)
      else
        match Requests.DecimalNat(s)
        case Some(n) => if n == 0 then Err(ZeroPageSize) else Ok(Some(n))
        case None => Ok(None)
  }

  /** `$request->only(['status', 'prioridade', 'busca', 'per_page'])`, with the page size as `PerPage` reads it. */
  function OnlyFilters(query: map<string, string>): (f: Listing.Filters)
    ensures f.status.Some? <==> "status" in query
    ensures f.status.Some? ==> f.status.value == query["status"]
    ensures f.prioridade.Some? <==> "prioridade" in query
    ensures f.prioridade.Some? ==> f.prioridade.value == query["prioridade"]
    ensures f.busca.Some? <==> "busca" in query
    ensures f.busca.Some? ==> f.busca.value == query["busca"]
    ensures PerPage(query).Ok? ==> f.perPage == PerPage(query).value
    ensures f.perPage.Some? ==> "per_page" in query && f.perPage.value >= 1 && Requests.DecimalNat(query["per_page"]) == f.perPage
  {
    Listing.Filters(
      if "status" in query then Some(query["status"]) else None,
      if "prioridade" in query then Some(query["prioridade"]) else None,
      if "busca" in query then Some(query["busca"]) else None,
      match PerPage(query) case Ok(n) => n case Err(_) => None)
  }

  /** "0" and "" fall back to 15 rows, "00" fails with 500, and "07" is 7 rows. */
  lemma PerPageExamples()
    ensures PerPage(map["per_page" := "0"]) == Ok(None) && Listing.PageSize(OnlyFilters(map["per_page" := "0"]).perPage) == 15
    ensures PerPage(map["per_page" := ""]) == Ok(None)
    ensures PerPage(map["per_page" := "00"]) == Err(ZeroPageSize)
    ensures PerPage(map["per_page" := "07"]) == Ok(Some(7))
  {
    assert "00"[..1] == "0" && "07"[..1] == "0" && "0"[..0] == [];
    assert Requests.DecimalNat("00") == Some(0);
    assert Requests.DecimalNat("07") == Some(7);
  }

  /**
   * The unsigned part of PHP's `FILTER_VALIDATE_INT`: "0", or digits that do
   * not start with a zero.
   */
  function UnsignedInt(s: string): (r: Option<nat>)
    ensures r.Some? <==> s != [] && Requests.AllDigits(s) && (s[0] == '0' ==> |s| == 1)
    ensures r.Some? ==> r == Requests.DecimalNat(s)
  {
    if s == [] || (s[0] == '0' && |s| > 1) then None else Requests.DecimalNat(s)
  }

  /**
   * The paginator's reading of the `page` query value with
   * `filter_var(..., FILTER_VALIDATE_INT)`: an optional sign followed by an
   * unsigned integer; anything else (a word, a decimal point, a leading zero)
   * is not an integer.
   */
  function PageParam(s: string): (r: Option<int>)
    ensures s != [] && s[0] != '+' && s[0] != '-' ==>
      (r.Some? <==> UnsignedInt(s).Some?) && (r.Some? ==> r.value == UnsignedInt(s).value)
    ensures s != [] && s[0] == '+' ==>
      (r.Some? <==> UnsignedInt(s[1..]).Some?) && (r.Some? ==> r.value == UnsignedInt(s[1..]).value)
    ensures s != [] && s[0] == '-' ==>
      (r.Some? <==> UnsignedInt(s[1..]).Some?) && (r.Some? ==> r.value == -(UnsignedInt(s[1..]).value as int))
    ensures s == [] ==> r.None?
  {
    if s == [] then None
    else if s[0] == '+' || s[0] == '-' then
      match UnsignedInt(s[1..])
      case Some(n) => Some(if s[0] == '-' then -(n as int) else n as int)
      case None => None
    else
      match UnsignedInt(s)
      case Some(n) => Some(n)
      case None => None
  }

  /** `page=2` is page 2; `abc`, `2.5` and `02` are not integers and leave the paginator on page 1. */
  lemma PageParamExamples()
    ensures PageParam("2") == Some(2) && PageParam("+2") == Some(2) && PageParam("-2") == Some(-2)
    ensures PageParam("abc").None? && PageParam("2.5").None? && PageParam("02").None?
    ensures Listing.CurrentPage(PageParam("abc")) == 1 && Listing.CurrentPage(PageParam("-2")) == 1
  {
    assert "+2"[1..] == "2";
    assert "-2"[1..] == "2";
    assert !Requests.AllDigits("2.5") by { assert "2.5"[1] == '.'; }
    assert !Requests.AllDigits("abc") by { assert "abc"[0] == 'a'; }
  }

  /** A page number written in decimal, as the paginator's links write it, is read back as that page. */
  lemma PageParamOfShown(n: nat)
    ensures PageParam(Requests.ShowNat(n)) == Some(n)
    ensures n >= 1 ==> Listing.CurrentPage(PageParam(Requests.ShowNat(n))) == n
  {
    Requests.DecimalNatOfShown(n);
  }

  /** The current page the paginator resolves from the query string. */
  function QueryPage(query: map<string, string>): (p: Option<int>)
    ensures "page" !in query ==> p.None?
    ensures "page" in query ==> p == PageParam(query["page"])
  {
    if "page" in query then PageParam(query["page"]) else None
  }

  /**
   * GET /api/tickets: every authenticated user may list; the four filters and
   * the paginator's `page` come from the query string; the store is not
   * touched. A zero page size spelled other than "0" ends in a 500.
   */
  function Index(st: Store, user: User, query: map<string, string>): (r: Response)
    ensures r.store == st && r.outbox == []
    ensures r.result.Err? <==> PerPage(query).Err?
    ensures r.result.Err? ==> r.result.error == ZeroPageSize && Code(r) == 500
    ensures r.result.Ok? ==> r.result.value.code == 200
    ensures r.result.Ok? ==> r.result.value.body == Tickets(Listing.List(st, OnlyFilters(query), QueryPage(query)))
  {
    if !Policy.ViewAny(user) then Fail(st, Forbidden)
    else if PerPage(query).Err? then Fail(st, ZeroPageSize)
    else Response(st, [], Ok(Reply(200, Tickets(Listing.List(st, OnlyFilters(query), QueryPage(query))))))
  }

  /** Keys other than the four filters and `page` do not change the listing. */
  lemma IndexIgnoresOtherKeys(st: Store, user: User, q1: map<string, string>, q2: map<string, string>)
    requires forall k :: k in ["status", "prioridade", "busca", "per_page", "page"] ==>
      (k in q1 <==> k in q2) && (k in q1 ==> q1[k] == q2[k])
    ensures Index(st, user, q1) == Index(st, user, q2)
  {
    assert "status" in ["status", "prioridade", "busca", "per_page", "page"];
    assert "prioridade" in ["status", "prioridade", "busca", "per_page", "page"];
    assert "busca" in ["status", "prioridade", "busca", "per_page", "page"];
    assert "per_page" in ["status", "prioridade", "busca", "per_page", "page"];
    assert "page" in ["status", "prioridade", "busca", "per_page", "page"];
    assert PerPage(q1) == PerPage(q2);
    assert OnlyFilters(q1) == OnlyFilters(q2);
    assert QueryPage(q1) == QueryPage(q2);
  }

  // ---------------------------------------------------------------------
  // store, show
  // ---------------------------------------------------------------------

  /** POST /api/tickets: the authenticated user becomes the requester of a new ABERTO ticket; 201. */
  function StoreTicket(st: Store, user: User, data: Service.NewTicket, now: nat): (r: Response)
    ensures r.result.Ok? && r.result.value.code == 201 && r.outbox == []
    ensures r.result.value.body.OneTicket?
    ensures var t := r.result.value.body.ticket;
      && t.status == Aberto && t.solicitanteId == user.id && t.resolvedAt.None?
      && r.store.tickets == st.tickets + [t] && r.store.logs == st.logs
  {
    if !Policy.Create(user) then Fail(st, Forbidden)
    else
      var (st', t) := Service.Create(st, data, user, now);
      Response(st', [], Ok(Reply(201, OneTicket(t, None))))
  }

  /** GET /api/tickets/{id}: the live ticket with its log history. */
  function Show(st: Store, id: nat, user: User): (r: Response)
    ensures r.store == st && r.outbox == []
    ensures r.result.Ok? <==> Live(st, id)
    ensures r.result.Ok? ==> r.result.value == Reply(200, OneTicket(st.tickets[id - 1], Some(LogsOf(st.logs, id))))
    ensures r.result.Err? ==> r.result.error == NotFound
  {
    match Find(st, id)
    case Err(e) => Fail(st, e)
    case Ok(t) =>
      if !Policy.View(user, t) then Fail(st, Forbidden)
      else Response(st, [], Ok(Reply(200, OneTicket(t, Some(LogsOf(st.logs, id))))))
  }

  // ---------------------------------------------------------------------
  // update
  // ---------------------------------------------------------------------

  /**
   * PUT/PATCH /api/tickets/{id}: 404, then the request's assignee gate (403),
   * then its rules (422), then the policy (403), then the service update.
   */
  function UpdateTicket(st: Store, id: nat, body: Requests.Body, user: User, users: set<UserId>, now: nat): (r: Response)
    requires Numbered(st)
    ensures r.outbox == []
    ensures r.result.Err? ==> r.store == st
    ensures r.result.Ok? <==>
      && Live(st, id)
      && Requests.AuthorizeUpdate(body, user)
      && Requests.ValidateUpdate(body, users).Ok?
      && Policy.Update(user, st.tickets[id - 1])
    ensures !Live(st, id) ==> r.result == Err(NotFound)
    ensures Live(st, id) && !Requests.AuthorizeUpdate(body, user) ==> r.result == Err(Forbidden)
    ensures Live(st, id) && Requests.AuthorizeUpdate(body, user) && Requests.ValidateUpdate(body, users).Err?
      ==> r.result == Err(Requests.ValidateUpdate(body, users).error)
    ensures (Live(st, id) && Requests.AuthorizeUpdate(body, user) && Requests.ValidateUpdate(body, users).Ok?
             && !Policy.Update(user, st.tickets[id - 1])) ==> r.result == Err(Forbidden)
    ensures r.result.Ok? ==>
      && r.store == Service.Update(st, id, Requests.ValidateUpdate(body, users).value, user, now)
      && r.result.value == Reply(200, OneTicket(r.store.tickets[id - 1], None))
  {
    match Find(st, id)
    case Err(e) => Fail(st, e)
    case Ok(t) =>
      if !Requests.AuthorizeUpdate(body, user) then Fail(st, Forbidden)
      else
        match Requests.ValidateUpdate(body, users)
        case Err(e) => Fail(st, e)
        case Ok(data) =>
          if !Policy.Update(user, t) then Fail(st, Forbidden)
          else
            var st' := Service.Update(st, id, data, user, now);
            Response(st', [], Ok(Reply(200, OneTicket(st'.tickets[id - 1], None))))
  }

  /**
   * All-or-nothing assignee rule: when a non-admin sends `responsavel_id`
   * (even null) the whole update is refused and no field changes, so the
   * service's own drop-the-field guard is never what protects the assignee.
   */
  lemma NonAdminAssigneeRejectsWholeUpdate(st: Store, id: nat, body: Requests.Body, user: User, users: set<UserId>, now: nat)
    requires Numbered(st) && Live(st, id)
    requires "responsavel_id" in body && !IsAdmin(user)
    ensures UpdateTicket(st, id, body, user, users, now) == Response(st, [], Err(Forbidden))
  {
  }

  /** Through the endpoint, a non-admin never changes the assignee, not even to null. */
  lemma NonAdminNeverChangesAssignee(st: Store, id: nat, body: Requests.Body, user: User, users: set<UserId>, now: nat)
    requires Numbered(st) && !IsAdmin(user)
    ensures var r := UpdateTicket(st, id, body, user, users, now);
      forall j :: 0 <= j < |st.tickets| ==> r.store.tickets[j].responsavelId == st.tickets[j].responsavelId
  {
    var r := UpdateTicket(st, id, body, user, users, now);
    if r.result.Ok? {
      var data := Requests.ValidateUpdate(body, users).value;
      assert data.responsavelId.None?;
    }
  }

  /**
   * The service's guard on its own is weaker: it drops only a non-null
   * assignee, so a non-admin sending an explicit null would clear it.
   */
  lemma ServiceGuardAloneLetsNonAdminClearAssignee()
    ensures var t := Ticket(1, "Falha no login", "O sistema recusa todas as senhas.", Aberto, Media, 7, Some(9), None, 0, 0, None);
      var st := Store([t], []);
      var data := Service.UpdateData(None, None, None, Some(None));
      Service.Update(st, 1, data, User(7, "user"), 5).tickets[0].responsavelId.None?
  {
  }

  // ---------------------------------------------------------------------
  // destroy
  // ---------------------------------------------------------------------

  /** DELETE /api/tickets/{id}: 404, then the policy (403), then the soft delete. */
  function Destroy(st: Store, id: nat, user: User, now: nat): (r: Response)
    ensures r.outbox == []
    ensures r.result.Err? ==> r.store == st
    ensures r.result.Ok? <==> Live(st, id) && Policy.Delete(user, st.tickets[id - 1])
    ensures !Live(st, id) ==> r.result == Err(NotFound)
    ensures Live(st, id) && !Policy.Delete(user, st.tickets[id - 1]) ==> r.result == Err(Forbidden)
    ensures r.result.Ok? ==> r.store == Service.Delete(st, id, now) && r.result.value == Reply(200, Deleted) && !Live(r.store, id)
  {
    match Find(st, id)
    case Err(e) => Fail(st, e)
    case Ok(t) =>
      if !Policy.Delete(user, t) then Fail(st, Forbidden)
      else Response(Service.Delete(st, id, now), [], Ok(Reply(200, Deleted)))
  }

  // ---------------------------------------------------------------------
  // updateStatus
  // ---------------------------------------------------------------------

  /**
   * PATCH /api/tickets/{id}/status: 404, then the status rules (422), then
   * the policy (403), then `TicketStatus::from` and the service transaction.
   * The answer carries the refreshed ticket with its whole log history.
   */
  function ChangeStatus(st: Store, id: nat, body: Requests.Body, user: User, now: nat, failAt: Option<nat>): (r: Response)
    requires Numbered(st)
    ensures r.result.Err? ==> r.store == st && r.outbox == []
    ensures r.result.Ok? <==>
      && Live(st, id)
      && Requests.ValidateStatus(body).Ok?
      && Policy.UpdateStatus(user, st.tickets[id - 1])
      && Service.UpdateStatus(st, id, StatusFrom(Requests.ValidateStatus(body).value).value, user, now, failAt).error.None?
    ensures !Live(st, id) ==> r.result == Err(NotFound)
    ensures Live(st, id) && Requests.ValidateStatus(body).Err? ==> r.result == Err(Requests.ValidateStatus(body).error)
    ensures Live(st, id) && Requests.ValidateStatus(body).Ok? && !Policy.UpdateStatus(user, st.tickets[id - 1])
      ==> r.result == Err(Forbidden)
    ensures r.result.Ok? ==>
      var novo := StatusFrom(Requests.ValidateStatus(body).value).value;
      var tx := Service.UpdateStatus(st, id, novo, user, now, failAt);
      && r.store == tx.store && r.outbox == tx.outbox
      && r.result.value == Reply(200, OneTicket(tx.store.tickets[id - 1], Some(LogsOf(tx.store.logs, id))))
  {
    match Find(st, id)
    case Err(e) => Fail(st, e)
    case Ok(t) =>
      if !Requests.AuthorizeStatus(body, user) then Fail(st, Forbidden)
      else
        match Requests.ValidateStatus(body)
        case Err(e) => Fail(st, e)
        case Ok(value) =>
          if !Policy.UpdateStatus(user, t) then Fail(st, Forbidden)
          else
            match StatusFrom(value)
            case Err(_) => Fail(st, Invalid(["status"]))
            case Ok(novo) =>
              var tx := Service.UpdateStatus(st, id, novo, user, now, failAt);
              if tx.error.Some? then Fail(st, tx.error.value)
              else Response(tx.store, tx.outbox, Ok(Reply(200, OneTicket(tx.store.tickets[id - 1], Some(LogsOf(tx.store.logs, id))))))
  }

  // ---------------------------------------------------------------------
  // Properties across endpoints
  // ---------------------------------------------------------------------

  /** Authorization happens before mutation: a request that changes the store came from the requester or an admin. */
  lemma MutationImpliesAuthorized(st: Store, id: nat, user: User, body: Requests.Body, users: set<UserId>, now: nat, failAt: Option<nat>)
    requires Numbered(st) && 1 <= id <= |st.tickets|
    requires !Policy.OwnerOrAdmin(user, st.tickets[id - 1])
    ensures UpdateTicket(st, id, body, user, users, now).store == st
    ensures Destroy(st, id, user, now).store == st
    ensures ChangeStatus(st, id, body, user, now, failAt).store == st
    ensures ChangeStatus(st, id, body, user, now, failAt).outbox == []
  {
  }

  /** Every status change that succeeds adds exactly one log entry, from the previous status, even when the status stays the same. */
  lemma ChangeStatusLogsOnce(st: Store, id: nat, body: Requests.Body, user: User, now: nat, failAt: Option<nat>)
    requires Numbered(st)
    ensures var r := ChangeStatus(st, id, body, user, now, failAt);
      r.result.Ok? ==>
        && |r.store.logs| == |st.logs| + 1
        && r.store.logs[..|st.logs|] == st.logs
        && r.store.logs[|st.logs|].de == st.tickets[id - 1].status
        && r.store.logs[|st.logs|].para == r.store.tickets[id - 1].status
        && r.store.logs[|st.logs|].userId == user.id
        && (r.outbox != [] <==> r.store.tickets[id - 1].status == Resolvido)
  {
    var r := ChangeStatus(st, id, body, user, now, failAt);
    if r.result.Ok? {
      assert r.store.logs[..|st.logs|] == st.logs;
    }
  }

  /** Every endpoint keeps the store invariant: ids, resolved_at consistency and log replay. */
  lemma EndpointsPreserveValid(st: Store, id: nat, body: Requests.Body, user: User, users: set<UserId>,
                               data: Service.NewTicket, now: nat, failAt: Option<nat>)
    requires Valid(st)
    ensures Valid(StoreTicket(st, user, data, now).store)
    ensures Valid(UpdateTicket(st, id, body, user, users, now).store)
    ensures Valid(Destroy(st, id, user, now).store)
    ensures Valid(ChangeStatus(st, id, body, user, now, failAt).store)
  {
    Service.CreatePreservesValid(st, data, user, now);
    if Live(st, id) {
      if Requests.ValidateUpdate(body, users).Ok? {
        Service.UpdatePreservesValid(st, id, Requests.ValidateUpdate(body, users).value, user, now);
      }
      Service.DeletePreservesValid(st, id, now);
      if Requests.ValidateStatus(body).Ok? {
        var novo := StatusFrom(Requests.ValidateStatus(body).value).value;
        Service.UpdateStatusPreservesValid(st, id, novo, user, now, failAt);
      }
    }
  }
}

=== FILE: domain.dfy ===
/**
 * The backend's records: users, tickets, status-change log entries, the
 * notifications a transition emits, and the ticket store with the invariants
 * the API keeps.
 */
module Domain {
  import opened Outcomes
  import opened Enums

  type UserId = nat

  /** An authenticated user; only the id and the role matter to the ticket rules. */
  datatype User = User(id: UserId, role: string)

  /** `User::isAdmin`: the role column holds "admin". */
  predicate IsAdmin(u: User)
  {
    u.role == "admin"
  }

  /**
   * A row of the tickets table. Timestamps are plain numbers supplied by the
   * caller as `now`; `deletedAt` is the soft-delete marker.
   */
  datatype Ticket = Ticket(
    id: nat,
    titulo: string,
    descricao: string,
    status: Status,
    prioridade: Priority,
    solicitanteId: UserId,
    responsavelId: Option<UserId>,
    resolvedAt: Option<nat>,
    createdAt: nat,
    updatedAt: nat,
    deletedAt: Option<nat>)

  /** A row of the ticket_logs table: one status change `de` -> `para` made by `userId`. */
  datatype LogEntry = LogEntry(id: nat, ticketId: nat, de: Status, para: Status, userId: UserId, createdAt: nat)

  /** The queued "ticket resolved" notification addressed to the ticket's requester. */
  datatype Notice = TicketResolved(ticketId: nat, recipient: UserId)

  /**
   * The two tables. Ticket ids are auto-incremented from 1 and rows are never
   * physically removed, so the ticket with id `k` is `tickets[k - 1]`; log ids
   * are auto-incremented the same way.
   */
  datatype Store = Store(tickets: seq<Ticket>, logs: seq<LogEntry>)

  /** The errors a request can end in, one per HTTP failure status the API answers. */
  datatype ApiError =
    | NotFound                       // 404: no such ticket, or soft-deleted
    | Forbidden                      // 403: request authorization or policy denied
    | Invalid(fields: seq<string>)   // 422: the fields whose validation rules failed
    | PersistenceError               // 500: a write raised inside the transaction
    | ZeroPageSize                   // 500: a page size of zero reached the paginator, which divides by it

  function HttpStatus(e: ApiError): nat
  {
    match e
    case NotFound => 404
    case Forbidden => 403
    case Invalid(_) => 422
    case PersistenceError => 500
    case ZeroPageSize => 500
  }

  const EmptyStore := Store([], [])

  /** There is a row with id `id` and it is not soft-deleted (what route model binding finds). */
  predicate Live(st: Store, id: nat)
  {
    1 <= id <= |st.tickets| && st.tickets[id - 1].deletedAt.None?
  }

  /** Route model binding: the live ticket with this id, or 404. */
  function Find(st: Store, id: nat): (r: Result<Ticket, ApiError>)
    ensures r.Ok? <==> Live(st, id)
    ensures r.Ok? ==> r.value == st.tickets[id - 1]
    ensures r.Err? ==> r.error == NotFound
  {
    if Live(st, id) then Ok(st.tickets[id - 1]) else Err(NotFound)
  }

  /** The resolution timestamp is present exactly while the ticket is RESOLVIDO. */
  predicate ResolvedConsistent(t: Ticket)
  {
    t.resolvedAt.Some? <==> t.status == Resolvido
  }

  /** The log entries of one ticket, in insertion order. */
  function LogsOf(logs: seq<LogEntry>, id: nat): (r: seq<LogEntry>)
    ensures |r| <= |logs|
    ensures forall k :: 0 <= k < |r| ==> r[k].ticketId == id
  {
    if logs == [] then []
    else
      var last := logs[|logs| - 1];
      LogsOf(logs[..|logs| - 1], id) + (if last.ticketId == id then [last] else [])
  }

  /**
   * The entries replay a walk from status `from` to status `to`: each entry
   * starts where the previous one ended.
   */
  predicate Chain(from: Status, es: seq<LogEntry>, to: Status)
    decreases |es|
  {
    if es == [] then from == to
    else es[0].de == from && Chain(es[0].para, es[1..], to)
  }

  /** Auto-increment numbering: the ticket with id `k` sits at position `k - 1`. */
  predicate Numbered(st: Store)
  {
    forall i :: 0 <= i < |st.tickets| ==> st.tickets[i].id == i + 1
  }

  /**
   * The invariant every API operation keeps, starting from the empty store:
   * ids match positions, resolved_at tracks RESOLVIDO, every log entry
   * belongs to an existing ticket, and each ticket's log replays its status
   * history from ABERTO (creation writes no log and always starts at ABERTO).
   */
  ghost predicate Valid(st: Store)
  {
    && Numbered(st)
    && (forall i :: 0 <= i < |st.tickets| ==> ResolvedConsistent(st.tickets[i]))
    && (forall k :: 0 <= k < |st.logs| ==> st.logs[k].id == k + 1)
    && (forall k :: 0 <= k < |st.logs| ==> 1 <= st.logs[k].ticketId <= |st.tickets|)
    && (forall i :: 0 <= i < |st.tickets| ==> Chain(Aberto, LogsOf(st.logs, i + 1), st.tickets[i].status))
  }

  lemma EmptyStoreValid()
    ensures Valid(EmptyStore)
  {
  }

  /** A ticket's log holds exactly the table's entries of that ticket. */
  lemma {:induction false} LogsOfExactly(logs: seq<LogEntry>, id: nat)
    ensures forall e :: e in LogsOf(logs, id) <==> e in logs && e.ticketId == id
  {
    if logs != [] {
      var init, last := logs[..|logs| - 1], logs[|logs| - 1];
      LogsOfExactly(init, id);
      assert logs == init + [last];
    }
  }

  /** Appending one entry extends exactly the log of the entry's ticket. */
  lemma LogsOfAppend(logs: seq<LogEntry>, e: LogEntry, id: nat)
    ensures LogsOf(logs + [e], id) == LogsOf(logs, id) + (if e.ticketId == id then [e] else [])
  {
    assert (logs + [e])[..|logs + [e]| - 1] == logs;
  }

  /** A ticket that no entry refers to has an empty log. */
  lemma {:induction false} LogsOfNone(logs: seq<LogEntry>, id: nat)
    requires forall k :: 0 <= k < |logs| ==> logs[k].ticketId != id
    ensures LogsOf(logs, id) == []
  {
    if logs != [] {
      LogsOfNone(logs[..|logs| - 1], id);
    }
  }

  /** A chain ending at `to` extends by an entry that starts at `to`. */
  lemma {:induction false} ChainExtend(from: Status, es: seq<LogEntry>, to: Status, e: LogEntry)
    requires Chain(from, es, to)
    requires e.de == to
    ensures Chain(from, es + [e], e.para)
    decreases |es|
  {
    if es == [] {
      assert [e][1..] == [];
    } else {
      ChainExtend(es[0].para, es[1..], to, e);
      assert (es + [e])[1..] == es[1..] + [e];
    }
  }

  /** A chain determines its end point: the last entry's `para`, or the start when empty. */
  lemma {:induction false} ChainEnd(from: Status, es: seq<LogEntry>, to: Status)
    requires Chain(from, es, to)
    ensures to == (if es == [] then from else es[|es| - 1].para)
    decreases |es|
  {
    if es != [] {
      ChainEnd(es[0].para, es[1..], to);
    }
  }

  /** In a valid store a ticket's status is the `para` of its latest log entry, or ABERTO when it has none. */
  lemma StatusFromHistory(st: Store, id: nat)
    requires Valid(st) && 1 <= id <= |st.tickets|
    ensures var es := LogsOf(st.logs, id);
      st.tickets[id - 1].status == if es == [] then Aberto else es[|es| - 1].para
  {
    ChainEnd(Aberto, LogsOf(st.logs, id), st.tickets[id - 1].status);
  }
}

=== FILE: enums.dfy ===
/**
 * The two closed, string-backed enumerations of the backend: the ticket status
 * and the ticket priority, with their backing values, display labels and the
 * `tryFrom`/`from` parsers that PHP derives for every backed enum.
 */
module Enums {
  import opened Outcomes

  datatype Status = Aberto | EmAndamento | Resolvido

  datatype Priority = Baixa | Media | Alta

  /** Raised by `from` when a string is not the backing value of any case. */
  datatype EnumError = NotACase(value: string)

  /** The backing string of a status case; it parses back to the same case. */
  function StatusValue(s: Status): (v: string)
    ensures StatusTryFrom(v) == Some(s)
  {
    match s
    case Aberto => "ABERTO"
    case EmAndamento => "EM_ANDAMENTO"
    case Resolvido => "RESOLVIDO"
  }

  /** `TicketStatus::tryFrom`: the case whose backing value is `v`, if any. */
  function StatusTryFrom(v: string): (r: Option<Status>)
    ensures r.Some? <==> (v == "ABERTO" || v == "EM_ANDAMENTO" || v == "RESOLVIDO")
  {
    if v == "ABERTO" then Some(Aberto)
    else if v == "EM_ANDAMENTO" then Some(EmAndamento)
    else if v == "RESOLVIDO" then Some(Resolvido)
    else None
  }

  /** `TicketStatus::from`: like tryFrom, but an unknown value is an error. */
  function StatusFrom(v: string): (r: Result<Status, EnumError>)
    ensures r.Ok? ==> StatusValue(r.value) == v
    ensures r.Err? <==> (forall s: Status :: StatusValue(s) != v)
  {
    match StatusTryFrom(v)
    case Some(s) => Ok(s)
    case None => Err(NotACase(v))
  }

  /** The Portuguese display label of a status. */
  function StatusLabel(s: Status): string
  {
    match s
    case Aberto => "Aberto"
    case EmAndamento => "Em Andamento"
    case Resolvido => "Resolvido"
  }

  /** The backing string of a priority case; it parses back to the same case. */
  function PriorityValue(p: Priority): (v: string)
    ensures PriorityTryFrom(v) == Some(p)
  {
    match p
    case Baixa => "BAIXA"
    case Media => "MEDIA"
    case Alta => "ALTA"
  }

  /** `TicketPrioridade::tryFrom`. */
  function PriorityTryFrom(v: string): (r: Option<Priority>)
    ensures r.Some? <==> (v == "BAIXA" || v == "MEDIA" || v == "ALTA")
  {
    if v == "BAIXA" then Some(Baixa)
    else if v == "MEDIA" then Some(Media)
    else if v == "ALTA" then Some(Alta)
    else None
  }

  /** `TicketPrioridade::from`. */
  function PriorityFrom(v: string): (r: Result<Priority, EnumError>)
    ensures r.Ok? ==> PriorityValue(r.value) == v
    ensures r.Err? <==> (forall p: Priority :: PriorityValue(p) != v)
  {
    match PriorityTryFrom(v)
    case Some(p) => Ok(p)
    case None => Err(NotACase(v))
  }

  /** The Portuguese display label of a priority. */
  function PriorityLabel(p: Priority): string
  {
    match p
    case Baixa => "Baixa"
    case Media => "M\U{E9}dia"
    case Alta => "Alta"
  }

  /** Each backing string is exactly the case name, so distinct cases have distinct values. */
  lemma StatusValueInjective(a: Status, b: Status)
    ensures StatusValue(a) == StatusValue(b) <==> a == b
  {
  }

  lemma PriorityValueInjective(a: Priority, b: Priority)
    ensures PriorityValue(a) == PriorityValue(b) <==> a == b
  {
  }

  /** No two statuses share a label, so a label identifies its status. */
  lemma StatusLabelsDistinct(a: Status, b: Status)
    ensures StatusLabel(a) == StatusLabel(b) <==> a == b
  {
  }

  lemma PriorityLabelsDistinct(a: Priority, b: Priority)
    ensures PriorityLabel(a) == PriorityLabel(b) <==> a == b
  {
  }
}

=== FILE: listing.dfy ===
/**
 * `TicketService::list`: the live tickets that pass every non-empty filter,
 * newest first, one page at a time.
 */
module Listing {
  import opened Outcomes
  import opened Enums
  import opened Domain
  import Text

  /** The filters `index` forwards: status, prioridade, busca and per_page; `None` when the key was not sent. */
  datatype Filters = Filters(
    status: Option<string>,
    prioridade: Option<string>,
    busca: Option<string>,
    perPage: Option<nat>)

  /** PHP `empty()` on a query-string value: absent, "" and "0" are all empty. */
  predicate Blank(v: Option<string>)
  {
    v.None? || v.value == "" || v.value == "0"
  }

  // ---------------------------------------------------------------------
  // The query as the builder assembles it
  // ---------------------------------------------------------------------

  /** One `where` clause of the query. */
  datatype Clause =
    | StatusIs(value: string)       // where('status', value)
    | PrioridadeIs(value: string)   // where('prioridade', value)
    | Mentions(term: string)        // titulo LIKE %term% OR descricao LIKE %term%

  predicate Holds(c: Clause, t: Ticket)
  {
    match c
    case StatusIs(v) => StatusValue(t.status) == v
    case PrioridadeIs(v) => PriorityValue(t.prioridade) == v
    case Mentions(term) => Text.Contains(t.titulo, term) || Text.Contains(t.descricao, term)
  }

  /** The clauses the builder adds, in order: one per non-empty filter. */
  function Clauses(f: Filters): (cs: seq<Clause>)
    ensures |cs| <= 3
  {
    (if Blank(f.status) then [] else [StatusIs(f.status.value)])
    + (if Blank(f.prioridade) then [] else [PrioridadeIs(f.prioridade.value)])
    + (if Blank(f.busca) then [] else [Mentions(f.busca.value)])
  }

  /** The rows that pass one clause, in their original order. */
  function Where(ts: seq<Ticket>, c: Clause): (r: seq<Ticket>)
    ensures |r| <= |ts|
    ensures forall t :: t in r <==> t in ts && Holds(c, t)
  {
    if ts == [] then []
    else
      var rest := Where(ts[1..], c);
      assert forall t :: t in ts <==> t == ts[0] || t in ts[1..];
      if Holds(c, ts[0]) then [ts[0]] + rest else rest
  }

  /** The rows that pass every clause. */
  function WhereAll(ts: seq<Ticket>, cs: seq<Clause>): (r: seq<Ticket>)
    ensures forall t :: t in r <==> t in ts && forall c :: c in cs ==> Holds(c, t)
    decreases |cs|
  {
    if cs == [] then ts
    else
      assert forall c :: c in cs <==> c == cs[0] || c in cs[1..];
      WhereAll(Where(ts, cs[0]), cs[1..])
  }

  /** The soft-delete scope: rows without a deletion stamp, in id order. */
  function LiveRows(ts: seq<Ticket>): (r: seq<Ticket>)
    ensures forall t :: t in r <==> t in ts && t.deletedAt.None?
  {
    if ts == [] then []
    else
      var rest := LiveRows(ts[1..]);
      assert forall t :: t in ts <==> t == ts[0] || t in ts[1..];
      if ts[0].deletedAt.None? then [ts[0]] + rest else rest
  }

  // ---------------------------------------------------------------------
  // orderBy('created_at', 'desc')
  // ---------------------------------------------------------------------

  ghost predicate NewestFirst(s: seq<Ticket>)
  {
    forall i, j :: 0 <= i < j < |s| ==> s[i].createdAt >= s[j].createdAt
  }

  lemma PrependNewest(a: Ticket, rest: seq<Ticket>)
    requires NewestFirst(rest)
    requires forall x :: x in rest ==> a.createdAt >= x.createdAt
    ensures NewestFirst([a] + rest)
  {
    forall i, j | 0 <= i < j < |[a] + rest|
      ensures ([a] + rest)[i].createdAt >= ([a] + rest)[j].createdAt
    {
      assert ([a] + rest)[j] == rest[j - 1];
      if i > 0 { assert ([a] + rest)[i] == rest[i - 1]; }
      else { assert rest[j - 1] in rest; }
    }
  }

  lemma SliceNewest(s: seq<Ticket>, lo: nat, hi: nat)
    requires lo <= hi <= |s|
    ensures NewestFirst(s) ==> NewestFirst(s[lo..hi])
  {
    if NewestFirst(s) {
      forall i, j | 0 <= i < j < hi - lo
        ensures s[lo..hi][i].createdAt >= s[lo..hi][j].createdAt
      {
        assert s[lo..hi][i] == s[lo + i] && s[lo..hi][j] == s[lo + j];
      }
    }
  }

  /** The head of a newest-first list is at least as new as every row of it. */
  lemma HeadIsNewest(s: seq<Ticket>)
    requires NewestFirst(s) && s != []
    ensures forall x :: x in s ==> s[0].createdAt >= x.createdAt
  {
    forall x | x in s ensures s[0].createdAt >= x.createdAt {
      var k :| 0 <= k < |s| && s[k] == x;
    }
  }

  /** Putting the old head back in front of the list the new row went into keeps the order. */
  lemma KeepHeadFirst(t: Ticket, s: seq<Ticket>, rest: seq<Ticket>)
    requires NewestFirst(s) && s != [] && t.createdAt < s[0].createdAt
    requires NewestFirst(rest) && multiset(rest) == multiset(s[1..]) + multiset{t}
    ensures NewestFirst([s[0]] + rest)
  {
    HeadIsNewest(s);
    forall x | x in rest ensures s[0].createdAt >= x.createdAt {
      assert x in multiset(rest);
      if x != t {
        assert x in multiset(s[1..]);
        assert x in s[1..];
        assert x in s;
      }
    }
    PrependNewest(s[0], rest);
  }

  /** Inserts one row into a newest-first list, keeping it newest first and losing no row. */
  function Insert(t: Ticket, s: seq<Ticket>): (r: seq<Ticket>)
    requires NewestFirst(s)
    ensures NewestFirst(r)
    ensures multiset(r) == multiset(s) + multiset{t}
    decreases |s|
  {
    if s == [] then [t]
    else if t.createdAt >= s[0].createdAt then
      HeadIsNewest(s);
      PrependNewest(t, s);
      [t] + s
    else
      SliceNewest(s, 1, |s|);
      var rest := Insert(t, s[1..]);
      KeepHeadFirst(t, s, rest);
      assert s == [s[0]] + s[1..];
      [s[0]] + rest
  }

  /** Orders the rows newest-created first; the rows themselves are kept, each as often as it occurs. */
  function OrderNewestFirst(s: seq<Ticket>): (r: seq<Ticket>)
    ensures NewestFirst(r)
    ensures multiset(r) == multiset(s)
    ensures |r| == |s|
  {
    if s == [] then []
    else
      assert s == [s[0]] + s[1..];
      Insert(s[0], OrderNewestFirst(s[1..]))
  }

  /** Every matching row, in the order the page slices are cut from. */
  function Query(st: Store, f: Filters): seq<Ticket>
  {
    OrderNewestFirst(WhereAll(LiveRows(st.tickets), Clauses(f)))
  }

  // ---------------------------------------------------------------------
  // paginate($filters['per_page'] ?? 15)
  // ---------------------------------------------------------------------

  const DefaultPerPage: nat := 15

  /** The page size: per_page when sent and non-zero; otherwise 15 (`?? 15`, then the paginator's own fallback to the model's 15 for a falsy size). */
  function PageSize(perPage: Option<nat>): (n: nat)
    ensures n >= 1
    ensures perPage.Some? && perPage.value > 0 ==> n == perPage.value
    ensures perPage.None? ==> n == 15
    ensures !(perPage.Some? && perPage.value > 0) ==> n == 15
  {
    if perPage.Some? && perPage.value > 0 then perPage.value else DefaultPerPage
  }

  /** The paginator's current page: the `page` parameter when it is an integer of at least 1, otherwise 1. */
  function CurrentPage(page: Option<int>): (p: nat)
    ensures p >= 1
    ensures page.Some? && page.value >= 1 ==> p == page.value
    ensures !(page.Some? && page.value >= 1) ==> p == 1
  {
    if page.Some? && page.value >= 1 then page.value else 1
  }

  /** The number of rows before page `page` (the OFFSET of the page query). */
  function Offset(page: nat, size: nat): (lo: nat)
  {
    if page == 0 then 0 else OffsetProduct(page - 1, size); (page - 1) * size
  }

  lemma OffsetProduct(k: nat, size: nat)
    ensures k * size >= 0
  {
  }

  datatype Page = Page(data: seq<Ticket>, total: nat, perPage: nat, currentPage: nat)

  /** The rows `lo .. lo + size` (fewer at the end, none past it), as LIMIT/OFFSET cut them. */
  function Window(rows: seq<Ticket>, lo: nat, size: nat): (d: seq<Ticket>)
    ensures |d| <= size
    ensures forall t :: t in d ==> t in rows
    ensures NewestFirst(rows) ==> NewestFirst(d)
    ensures lo < |rows| ==> d == rows[lo..if lo + size <= |rows| then lo + size else |rows|]
    ensures lo >= |rows| ==> d == []
  {
    if lo < |rows| then
      var hi := if lo + size <= |rows| then lo + size else |rows|;
      assert forall t :: t in rows[lo..hi] ==> t in rows;
      SliceNewest(rows, lo, hi);
      rows[lo..hi]
    else []
  }

  /** The meaning of the filters, stated directly: the ticket passes every filter that is not empty. */
  ghost predicate Selected(f: Filters, t: Ticket)
  {
    && (Blank(f.status) || StatusValue(t.status) == f.status.value)
    && (Blank(f.prioridade) || PriorityValue(t.prioridade) == f.prioridade.value)
    && (Blank(f.busca)
        || (exists i :: Text.OccursAt(t.titulo, f.busca.value, i))
        || (exists i :: Text.OccursAt(t.descricao, f.busca.value, i)))
  }

  /** A ticket passes the builder's clauses exactly when it is selected by the filters. */
  lemma ClausesMeanSelected(f: Filters, t: Ticket)
    ensures (forall c :: c in Clauses(f) ==> Holds(c, t)) <==> Selected(f, t)
  {
    var cs := Clauses(f);
    if !Blank(f.busca) {
      Text.ContainsIffOccurs(t.titulo, f.busca.value);
      Text.ContainsIffOccurs(t.descricao, f.busca.value);
      assert Mentions(f.busca.value) in cs;
    }
    if !Blank(f.status) { assert StatusIs(f.status.value) in cs; }
    if !Blank(f.prioridade) { assert PrioridadeIs(f.prioridade.value) in cs; }
  }

  /**
   * The matching rows: a ticket is among them exactly when it is a live
   * ticket of the store that passes every non-empty filter (a conjunction),
   * and they come newest first.
   */
  lemma QuerySelectsExactly(st: Store, f: Filters)
    ensures NewestFirst(Query(st, f))
    ensures forall t :: t in Query(st, f) <==> t in st.tickets && t.deletedAt.None? && Selected(f, t)
  {
    var base := WhereAll(LiveRows(st.tickets), Clauses(f));
    assert forall t :: t in Query(st, f) <==> t in base by {
      forall t ensures t in Query(st, f) <==> t in base {
        assert t in Query(st, f) <==> t in multiset(Query(st, f));
      }
    }
    forall t ensures t in base <==> t in st.tickets && t.deletedAt.None? && Selected(f, t) {
      ClausesMeanSelected(f, t);
    }
  }

  /**
   * `list`: the page `page` of the matching tickets, `per_page` (default 15)
   * rows at a time; every row on it is live and passes all filters, the page
   * is newest first, and `total` counts every match.
   */
  function List(st: Store, f: Filters, page: Option<int>): (p: Page)
    ensures p.perPage == PageSize(f.perPage) && p.currentPage == CurrentPage(page)
    ensures p.total == |Query(st, f)|
    ensures |p.data| <= p.perPage
    ensures NewestFirst(p.data)
    ensures forall t :: t in p.data ==> t in st.tickets && t.deletedAt.None? && Selected(f, t)
    ensures var lo := Offset(p.currentPage, p.perPage);
      lo < p.total ==> p.data == Query(st, f)[lo..if lo + p.perPage <= p.total then lo + p.perPage else p.total]
    ensures Offset(p.currentPage, p.perPage) >= p.total ==> p.data == []
  {
    var rows := Query(st, f);
    var size := PageSize(f.perPage);
    var cur := CurrentPage(page);
    var lo := Offset(cur, size);
    QuerySelectsExactly(st, f);
    Page(Window(rows, lo, size), |rows|, size, cur)
  }
}

=== FILE: outcomes.dfy ===
/** Optional values and success/failure results shared by every module. */
module Outcomes {

  /** A value that may be absent: PHP null, a missing array key, JavaScript undefined. */
  datatype Option<+T> = None | Some(value: T)

  /** The outcome of an operation that can fail with an error of type E. */
  datatype Result<+T, +E> = Ok(value: T) | Err(error: E)
}

=== FILE: policy.dfy ===
/**
 * `TicketPolicy`: who may do what to a ticket. Reading and creating are open
 * to every authenticated user; the three mutating abilities share one rule,
 * requester-or-admin.
 */
module Policy {
  import opened Domain

  function ViewAny(u: User): bool { true }

  function View(u: User, t: Ticket): bool { true }

  function Create(u: User): bool { true }

  /** The requester-or-admin rule behind every mutating ability. */
  predicate OwnerOrAdmin(u: User, t: Ticket)
  {
    IsAdmin(u) || u.id == t.solicitanteId
  }

  function Update(u: User, t: Ticket): bool { IsAdmin(u) || u.id == t.solicitanteId }

  function UpdateStatus(u: User, t: Ticket): bool { IsAdmin(u) || u.id == t.solicitanteId }

  function Delete(u: User, t: Ticket): bool { IsAdmin(u) || u.id == t.solicitanteId }

  /** Reading and creating are never denied to an authenticated user. */
  lemma OpenAbilities(u: User, t: Ticket)
    ensures ViewAny(u) && View(u, t) && Create(u)
  {
  }

  /** The three mutating abilities agree on every (user, ticket) pair and are the requester-or-admin rule. */
  lemma MutatingAbilitiesAgree(u: User, t: Ticket)
    ensures Update(u, t) == UpdateStatus(u, t) == Delete(u, t) == OwnerOrAdmin(u, t)
  {
  }

  /** A user who is neither the requester nor an admin may not mutate the ticket. */
  lemma StrangerDenied(u: User, t: Ticket)
    requires !IsAdmin(u) && u.id != t.solicitanteId
    ensures !Update(u, t) && !UpdateStatus(u, t) && !Delete(u, t)
  {
  }

  /** The requester may mutate their own ticket whatever their role, and an admin any ticket. */
  lemma OwnerAndAdminAllowed(u: User, t: Ticket)
    requires IsAdmin(u) || u.id == t.solicitanteId
    ensures Update(u, t) && UpdateStatus(u, t) && Delete(u, t)
  {
  }
}

=== FILE: register_form.dfy ===
/**
 * The registration screen's pre-submit checks, in order: every field filled
 * (after trimming), password equals its confirmation (untrimmed), password of
 * at least 8 characters.
 */
module RegisterForm {
  import opened Text

  const FillAllMessage := "Preencha todos os campos."
  const MismatchMessage := "As senhas n\U{E3}o coincidem."
  const ShortPasswordMessage := "A senha deve ter no m\U{ED}nimo 8 caracteres."

  datatype RegisterAction =
    | RegisterAlert(message: string)
    | CallRegister(name: string, email: string, password: string, confirmation: string)

  /**
   * `handleRegister`: only the first failing check is reported and nothing
   * is sent; on success name and email are sent trimmed, the password and
   * its confirmation exactly as typed.
   */
  function HandleRegister(name: string, email: string, password: string, confirmation: string): (a: RegisterAction)
    ensures a.CallRegister? <==>
      && Trim(name) != [] && Trim(email) != [] && Trim(password) != [] && Trim(confirmation) != []
      && password == confirmation && |password| >= 8
    ensures (Trim(name) == [] || Trim(email) == [] || Trim(password) == [] || Trim(confirmation) == [])
      ==> a == RegisterAlert(FillAllMessage)
    ensures a == RegisterAlert(MismatchMessage) <==>
      && Trim(name) != [] && Trim(email) != [] && Trim(password) != [] && Trim(confirmation) != []
      && password != confirmation
    ensures a == RegisterAlert(ShortPasswordMessage) <==>
      && Trim(name) != [] && Trim(email) != [] && Trim(password) != [] && Trim(confirmation) != []
      && password == confirmation && |password| < 8
    ensures a.CallRegister? ==> a == CallRegister(Trim(name), Trim(email), password, confirmation)
  {
    if Trim(name) == [] || Trim(email) == [] || Trim(password) == [] || Trim(confirmation) == [] then
      RegisterAlert(FillAllMessage)
    else if password != confirmation then RegisterAlert(MismatchMessage)
    else if |password| < 8 then RegisterAlert(ShortPasswordMessage)
    else CallRegister(Trim(name), Trim(email), password, confirmation)
  }

  /** A field of white space only counts as empty. */
  lemma BlankFieldRefused(name: string, email: string, password: string, confirmation: string)
    requires AllSpace(name) || AllSpace(email) || AllSpace(password) || AllSpace(confirmation)
    ensures HandleRegister(name, email, password, confirmation) == RegisterAlert(FillAllMessage)
  {
    TrimEmptyIffAllSpace(name);
    TrimEmptyIffAllSpace(email);
    TrimEmptyIffAllSpace(password);
    TrimEmptyIffAllSpace(confirmation);
  }

  /** A string whose first character is not white space does not trim to empty. */
  lemma FirstCharKeepsNonBlank(s: string)
    requires s != [] && !IsJsSpace(s[0])
    ensures Trim(s) != []
  {
    TrimEmptyIffAllSpace(s);
  }

  /** The password and its confirmation are compared untrimmed: a trailing space is a mismatch. */
  lemma TrailingSpaceIsMismatch()
    ensures HandleRegister("Ana", "ana@exemplo.com", "segredo123", "segredo123 ") == RegisterAlert(MismatchMessage)
  {
    FirstCharKeepsNonBlank("Ana");
    FirstCharKeepsNonBlank("ana@exemplo.com");
    FirstCharKeepsNonBlank("segredo123");
    FirstCharKeepsNonBlank("segredo123 ");
  }
}

=== FILE: requests.dfy ===
/**
 * The two form requests of the ticket API: `UpdateTicketRequest` (partial
 * update with the admin-only assignee gate) and `UpdateTicketStatusRequest`.
 * A request body is a map from keys to decoded JSON values, taken as it
 * reaches validation.
 */
module Requests {
  import opened Outcomes
  import opened Enums
  import opened Domain
  import Service

  /** A decoded JSON value of a request field. */
  datatype Json = JNull | JStr(s: string) | JInt(n: int) | JBool(b: bool)

  type Body = map<string, Json>

  // ---------------------------------------------------------------------
  // UpdateTicketRequest
  // ---------------------------------------------------------------------

  /**
   * `UpdateTicketRequest::authorize`: a non-admin may not send the key
   * `responsavel_id` at all, not even with a null value.
   */
  function AuthorizeUpdate(body: Body, u: User): (ok: bool)
    ensures !ok <==> "responsavel_id" in body && !IsAdmin(u)
  {
    !("responsavel_id" in body && !IsAdmin(u))
  }

  /** 'sometimes|required|string|min:5|max:120' on a value that was sent. */
  predicate TituloOk(v: Json)
  {
    v.JStr? && 5 <= |v.s| <= 120
  }

  /** 'sometimes|required|string|min:20'. */
  predicate DescricaoOk(v: Json)
  {
    v.JStr? && |v.s| >= 20
  }

  /** 'sometimes|required|enum:TicketPrioridade'. */
  predicate PrioridadeOk(v: Json)
  {
    v.JStr? && PriorityTryFrom(v.s).Some?
  }

  /** Every character of `s` is a decimal digit. */
  predicate AllDigits(s: string)
  {
    forall k :: 0 <= k < |s| ==> '0' <= s[k] <= '9'
  }

  /** A string read as a decimal number, when it is one. */
  function DecimalNat(s: string): (r: Option<nat>)
    ensures r.Some? <==> s != [] && AllDigits(s)
  {
    if s == [] then None else DigitsValue(s)
  }

  function DigitsValue(s: string): (r: Option<nat>)
    ensures r.Some? <==> AllDigits(s)
  {
    if s == [] then Some(0)
    else if '0' <= s[|s| - 1] <= '9' then
      match DigitsValue(s[..|s| - 1])
      case Some(n) => Some(n * 10 + (s[|s| - 1] as int - '0' as int))
      case None => None
    else None
  }

  /** The decimal spelling of `n`, without leading zeros (as PHP writes an integer into a URL). */
  function ShowNat(n: nat): (s: string)
    ensures s != [] && AllDigits(s)
    ensures s[0] == '0' ==> n == 0 && |s| == 1
  {
    if n < 10 then [('0' as int + n) as char]
    else ShowNat(n / 10) + [('0' as int + n % 10) as char]
  }

  /** Reading a number's decimal spelling gives the number back. */
  lemma {:induction false} DecimalNatOfShown(n: nat)
    ensures DigitsValue(ShowNat(n)) == Some(n)
    ensures DecimalNat(ShowNat(n)) == Some(n)
  {
    var s := ShowNat(n);
    if n >= 10 {
      DecimalNatOfShown(n / 10);
      assert s[..|s| - 1] == ShowNat(n / 10);
    }
  }

  /** The user id a non-null `responsavel_id` names: a JSON integer, or a string of decimal digits (the database compares it with the integer key). */
  function IdOf(v: Json): (r: Option<UserId>)
    ensures v.JInt? ==> (r.Some? <==> v.n >= 0) && (r.Some? ==> r.value == v.n)
    ensures v.JStr? ==> r == DecimalNat(v.s)
    ensures v.JNull? || v.JBool? ==> r.None?
  {
    match v
    case JInt(n) => if n >= 0 then Some(n as nat) else None
    case JStr(s) => DecimalNat(s)
    case _ => None
  }

  /** 'nullable|exists:users,id' against the ids in `users`. */
  predicate ResponsavelOk(v: Json, users: set<UserId>)
  {
    v.JNull? || (IdOf(v).Some? && IdOf(v).value in users)
  }

  /** The fields whose rules fail, in rule order; a key that was not sent is not checked. */
  function UpdateErrors(body: Body, users: set<UserId>): seq<string>
  {
    (if "titulo" in body && !TituloOk(body["titulo"]) then ["titulo"] else [])
    + (if "descricao" in body && !DescricaoOk(body["descricao"]) then ["descricao"] else [])
    + (if "prioridade" in body && !PrioridadeOk(body["prioridade"]) then ["prioridade"] else [])
    + (if "responsavel_id" in body && !ResponsavelOk(body["responsavel_id"], users) then ["responsavel_id"] else [])
  }

  /**
   * `UpdateTicketRequest::rules` followed by `validated()`: either the failing
   * fields, or exactly the four ruled keys that were sent, decoded. Keys
   * outside the rules (status, solicitante_id, ...) never reach the service.
   */
  function ValidateUpdate(body: Body, users: set<UserId>): (r: Result<Service.UpdateData, ApiError>)
    ensures r.Err? <==>
      || ("titulo" in body && !TituloOk(body["titulo"]))
      || ("descricao" in body && !DescricaoOk(body["descricao"]))
      || ("prioridade" in body && !PrioridadeOk(body["prioridade"]))
      || ("responsavel_id" in body && !ResponsavelOk(body["responsavel_id"], users))
    ensures r.Err? ==> r.error.Invalid? && r.error.fields != []
    ensures r.Ok? ==>
      && (r.value.titulo.Some? <==> "titulo" in body)
      && (r.value.titulo.Some? ==> 5 <= |r.value.titulo.value| <= 120 && body["titulo"] == JStr(r.value.titulo.value))
      && (r.value.descricao.Some? <==> "descricao" in body)
      && (r.value.descricao.Some? ==> |r.value.descricao.value| >= 20 && body["descricao"] == JStr(r.value.descricao.value))
      && (r.value.prioridade.Some? <==> "prioridade" in body)
      && (r.value.prioridade.Some? ==> body["prioridade"] == JStr(PriorityValue(r.value.prioridade.value)))
      && (r.value.responsavelId.Some? <==> "responsavel_id" in body)
      && (r.value.responsavelId.Some? && r.value.responsavelId.value.Some? ==> r.value.responsavelId.value.value in users)
      && (r.value.responsavelId == Some(None) <==> "responsavel_id" in body && body["responsavel_id"] == JNull)
      && (r.value.responsavelId.Some? && r.value.responsavelId.value.Some? ==>
            IdOf(body["responsavel_id"]) == r.value.responsavelId.value)
      && ("responsavel_id" in body && body["responsavel_id"].JInt? ==>
            r.value.responsavelId == Some(Some(body["responsavel_id"].n as nat)))
  {
    var errors := UpdateErrors(body, users);
    if errors != [] then Err(Invalid(errors))
    else
      Ok(Service.UpdateData(
        if "titulo" in body then Some(body["titulo"].s) else None,
        if "descricao" in body then Some(body["descricao"].s) else None,
        if "prioridade" in body then PriorityTryFrom(body["prioridade"].s) else None,
        if "responsavel_id" in body then
          Some(if body["responsavel_id"].JNull? then None else IdOf(body["responsavel_id"]))
        else None))
  }

  /** A body that sends none of the ruled keys passes validation and updates nothing. */
  lemma EmptyUpdateIsValid(users: set<UserId>)
    ensures ValidateUpdate(map[], users) == Ok(Service.UpdateData(None, None, None, None))
  {
  }

  // ---------------------------------------------------------------------
  // UpdateTicketStatusRequest
  // ---------------------------------------------------------------------

  /** `UpdateTicketStatusRequest::authorize`: always true; the policy decides. */
  function AuthorizeStatus(body: Body, u: User): bool { true }

  /**
   * `UpdateTicketStatusRequest::rules` and `validated('status')`: the status
   * must be sent and must be the backing value of a TicketStatus case; the
   * validated string then always converts with `from`.
   */
  function ValidateStatus(body: Body): (r: Result<string, ApiError>)
    ensures r.Ok? <==> "status" in body && body["status"].JStr? && StatusTryFrom(body["status"].s).Some?
    ensures "status" !in body ==> r == Err(Invalid(["status"]))
    ensures r.Err? ==> r.error == Invalid(["status"])
    ensures r.Ok? ==> body["status"] == JStr(r.value) && StatusFrom(r.value).Ok?
  {
    if "status" in body && body["status"].JStr? && StatusTryFrom(body["status"].s).Some? then
      Ok(body["status"].s)
    else Err(Invalid(["status"]))
  }

  /** Any string other than the three backing values is refused. */
  lemma UnknownStatusRefused(body: Body)
    requires "status" in body && body["status"].JStr?
    requires body["status"].s != "ABERTO" && body["status"].s != "EM_ANDAMENTO" && body["status"].s != "RESOLVIDO"
    ensures ValidateStatus(body).Err?
  {
  }
}

=== FILE: responsive.dfy ===
/** `useResponsive`: the window-width breakpoints and the per-breakpoint value picker. */
module Responsive {
  import opened Outcomes

  const Sm: int := 600
  const Md: int := 900
  const Lg: int := 1200
  const Xl: int := 1536

  datatype Layout = Layout(isMobile: bool, isTablet: bool, isDesktop: bool, isLargeDesktop: bool)

  /**
   * The breakpoint flags of a window width: exactly one of mobile (below 600),
   * tablet (600 up to 900) and desktop (900 and up) holds, and large desktop
   * (1200 and up) is a kind of desktop.
   */
  function Classify(width: int): (l: Layout)
    ensures (l.isMobile && !l.isTablet && !l.isDesktop)
         || (!l.isMobile && l.isTablet && !l.isDesktop)
         || (!l.isMobile && !l.isTablet && l.isDesktop)
    ensures l.isLargeDesktop ==> l.isDesktop
    ensures l.isMobile <==> width < 600
    ensures l.isDesktop <==> width >= 900
    ensures l.isLargeDesktop <==> width >= 1200
  {
    Layout(width < Sm, width >= Sm && width < Md, width >= Md, width >= Lg)
  }

  /** JavaScript `a ?? b`: the first operand unless it is null or undefined. */
  function Coalesce<T>(a: Option<T>, b: Option<T>): Option<T>
  {
    if a.Some? then a else b
  }

  /**
   * `responsiveValue({ mobile, tablet, desktop })`: the value for the current
   * breakpoint, falling back to the next smaller breakpoint's value when it
   * is not given (desktop -> tablet -> mobile).
   */
  function ResponsiveValue<T>(width: int, mobile: Option<T>, tablet: Option<T>, desktop: Option<T>): (r: Option<T>)
    ensures r.Some? ==> r == mobile || r == tablet || r == desktop
    ensures mobile.Some? ==> r.Some?
    ensures width < 600 ==> r == mobile
    ensures r.Some? && r != mobile ==> width >= 600
    ensures r.Some? && r != mobile && r != tablet ==> width >= 900 && r == desktop
    ensures width >= 900 && desktop.Some? ==> r == desktop
    ensures width >= 600 && tablet.Some? && (width < 900 || desktop.None?) ==> r == tablet
    ensures width >= 600 && tablet.None? && (width < 900 || desktop.None?) ==> r == mobile
  {
    var l := Classify(width);
    if l.isDesktop then Coalesce(desktop, Coalesce(tablet, mobile))
    else if l.isTablet then Coalesce(tablet, mobile)
    else mobile
  }

  /** The values a breakpoint may fall back on, its own first, then each smaller breakpoint's. */
  function Fallbacks<T>(l: Layout, mobile: Option<T>, tablet: Option<T>, desktop: Option<T>): seq<Option<T>>
  {
    if l.isDesktop then [desktop, tablet, mobile]
    else if l.isTablet then [tablet, mobile]
    else [mobile]
  }

  /** The first given value of a list, if any. */
  function FirstGiven<T>(vs: seq<Option<T>>): (r: Option<T>)
    ensures r.Some? ==> r in vs
    ensures r.None? <==> forall k :: 0 <= k < |vs| ==> vs[k].None?
  {
    if vs == [] then None else if vs[0].Some? then vs[0] else FirstGiven(vs[1..])
  }

  /** The picker is the first given value in the current breakpoint's fallback list. */
  lemma ResponsiveValueIsFirstGiven<T>(width: int, mobile: Option<T>, tablet: Option<T>, desktop: Option<T>)
    ensures ResponsiveValue(width, mobile, tablet, desktop) == FirstGiven(Fallbacks(Classify(width), mobile, tablet, desktop))
  {
    assert FirstGiven([mobile]) == mobile by {
      assert [mobile][1..] == [];
    }
    assert FirstGiven([tablet, mobile]) == Coalesce(tablet, mobile) by {
      assert [tablet, mobile][1..] == [mobile];
    }
    assert FirstGiven([desktop, tablet, mobile]) == Coalesce(desktop, Coalesce(tablet, mobile)) by {
      assert [desktop, tablet, mobile][1..] == [tablet, mobile];
    }
  }

  /** When every breakpoint has a value, the value of the width's own breakpoint is chosen. */
  lemma ResponsiveValueOfOwnBreakpoint<T>(width: int, m: T, t: T, d: T)
    ensures var l := Classify(width);
      var r := ResponsiveValue(width, Some(m), Some(t), Some(d));
      && (l.isMobile ==> r == Some(m))
      && (l.isTablet ==> r == Some(t))
      && (l.isDesktop ==> r == Some(d))
  {
  }
}

=== FILE: scenarios.dfy ===
/**
 * The feature tests' scenarios, stated for every store they can start from
 * rather than for one fixture.
 */
module Scenarios {
  import opened Outcomes
  import opened Enums
  import opened Domain
  import Policy
  import Requests
  import Service
  import Controller

  function StatusBody(v: string): Requests.Body
  {
    map["status" := Requests.JStr(v)]
  }

  /** The ticket after the first transition is still live and in EM_ANDAMENTO, with the first log entry recorded. */
  lemma FirstStep(st: Store, id: nat, owner: User, t1: nat)
    requires Valid(st) && Live(st, id)
    requires st.tickets[id - 1].status == Aberto && owner.id == st.tickets[id - 1].solicitanteId
    ensures var r := Controller.ChangeStatus(st, id, StatusBody("EM_ANDAMENTO"), owner, t1, None);
      && r.result.Ok? && r.result.value.code == 200
      && Valid(r.store) && Live(r.store, id)
      && r.store.tickets[id - 1].status == EmAndamento
      && r.store.tickets[id - 1].resolvedAt.None?
      && r.store.tickets[id - 1].solicitanteId == owner.id
      && r.outbox == []
      && |r.store.logs| == |st.logs| + 1
      && LogsOf(r.store.logs, id) == LogsOf(st.logs, id) + [LogEntry(|st.logs| + 1, id, Aberto, EmAndamento, owner.id, t1)]
  {
    var r := Controller.ChangeStatus(st, id, StatusBody("EM_ANDAMENTO"), owner, t1, None);
    assert Requests.ValidateStatus(StatusBody("EM_ANDAMENTO")) == Ok("EM_ANDAMENTO");
    Controller.EndpointsPreserveValid(st, id, StatusBody("EM_ANDAMENTO"), owner, {}, Service.NewTicket("", "", Media, None, None, None), t1, None);
    LogsOfAppend(st.logs, LogEntry(|st.logs| + 1, id, Aberto, EmAndamento, owner.id, t1), id);
  }

  /** From EM_ANDAMENTO, the requester's move to RESOLVIDO stamps resolved_at, logs the step and queues the notice. */
  lemma ResolveStep(st: Store, id: nat, owner: User, t2: nat)
    requires Valid(st) && Live(st, id)
    requires st.tickets[id - 1].status == EmAndamento && owner.id == st.tickets[id - 1].solicitanteId
    ensures var r := Controller.ChangeStatus(st, id, StatusBody("RESOLVIDO"), owner, t2, None);
      && r.result.Ok? && r.result.value.code == 200
      && r.store.tickets[id - 1].status == Resolvido
      && r.store.tickets[id - 1].resolvedAt == Some(t2)
      && r.outbox == [TicketResolved(id, owner.id)]
      && LogsOf(r.store.logs, id) == LogsOf(st.logs, id) + [LogEntry(|st.logs| + 1, id, EmAndamento, Resolvido, owner.id, t2)]
  {
    assert Requests.ValidateStatus(StatusBody("RESOLVIDO")) == Ok("RESOLVIDO");
    LogsOfAppend(st.logs, LogEntry(|st.logs| + 1, id, EmAndamento, Resolvido, owner.id, t2), id);
  }

  /**
   * PATCH status as the requester, ABERTO to EM_ANDAMENTO and then to
   * RESOLVIDO: both answer 200, the ticket gains exactly the two log entries
   * in order, resolved_at stays empty after the first step and is set by
   * the second, and only the second queues the resolution notice.
   */
  lemma StatusLifecycle(st: Store, id: nat, owner: User, t1: nat, t2: nat)
    requires Valid(st) && Live(st, id)
    requires st.tickets[id - 1].status == Aberto && owner.id == st.tickets[id - 1].solicitanteId
    ensures var r1 := Controller.ChangeStatus(st, id, StatusBody("EM_ANDAMENTO"), owner, t1, None);
      var r2 := Controller.ChangeStatus(r1.store, id, StatusBody("RESOLVIDO"), owner, t2, None);
      && r1.result.Ok? && r1.result.value.code == 200
      && r2.result.Ok? && r2.result.value.code == 200
      && r1.store.tickets[id - 1].resolvedAt.None?
      && r2.store.tickets[id - 1].status == Resolvido
      && r2.store.tickets[id - 1].resolvedAt == Some(t2)
      && r1.outbox == [] && r2.outbox == [TicketResolved(id, owner.id)]
      && LogsOf(r2.store.logs, id) == LogsOf(st.logs, id) + [
           LogEntry(|st.logs| + 1, id, Aberto, EmAndamento, owner.id, t1),
           LogEntry(|st.logs| + 2, id, EmAndamento, Resolvido, owner.id, t2)]
  {
    FirstStep(st, id, owner, t1);
    var r1 := Controller.ChangeStatus(st, id, StatusBody("EM_ANDAMENTO"), owner, t1, None);
    ResolveStep(r1.store, id, owner, t2);
    assert |r1.store.logs| == |st.logs| + 1;
  }

  /** A user who is neither the requester nor an admin gets 403 on delete and the ticket stays. */
  lemma StrangerCannotDelete(st: Store, id: nat, stranger: User, now: nat)
    requires Live(st, id) && !IsAdmin(stranger) && stranger.id != st.tickets[id - 1].solicitanteId
    ensures var r := Controller.Destroy(st, id, stranger, now);
      Controller.Code(r) == 403 && r.store == st && Live(r.store, id)
  {
  }
}

=== FILE: service.dfy ===
/**
 * `TicketService`: the ticket lifecycle operations on the store. The clock is
 * the `now` parameter; a transaction's persistence failures are injected
 * through `failAt`, the index of the write that raises.
 */
module Service {
  import opened Outcomes
  import opened Enums
  import opened Domain

  // ---------------------------------------------------------------------
  // Persisting a changed ticket
  // ---------------------------------------------------------------------

  /**
   * Eloquent's `save` of a model whose attributes were set to those of
   * `after`: when nothing differs no query is issued and the row stays as it
   * was; otherwise the row becomes `after` with `updated_at` moved to `now`.
   */
  function Saved(before: Ticket, after: Ticket, now: nat): (r: Ticket)
    ensures r.(updatedAt := after.updatedAt) == after
    ensures r.updatedAt == (if after == before then before.updatedAt else now)
  {
    if after == before then before else after.(updatedAt := now)
  }

  // ---------------------------------------------------------------------
  // The transaction wrapper
  // ---------------------------------------------------------------------

  /** One write performed inside a transaction. */
  datatype Write =
    | PutTicket(ticket: Ticket)   // UPDATE of the ticket row with this id
    | AppendLog(entry: LogEntry)  // INSERT into ticket_logs
    | Notify(notice: Notice)      // push of a queued notification

  /** What a transaction sees and produces: the store inside it and the notifications pushed so far. */
  datatype Work = Work(store: Store, outbox: seq<Notice>)

  /** What a transaction hands back: the committed (or rolled back) store, the notifications, and the error that aborted it. */
  datatype TxOutcome = TxOutcome(store: Store, outbox: seq<Notice>, error: Option<ApiError>)

  /** A write that a store of `n` tickets can take: ticket updates name an existing row. */
  predicate Targets(n: nat, x: Write)
  {
    x.PutTicket? ==> 1 <= x.ticket.id <= n
  }

  function Apply(w: Work, x: Write): (r: Work)
    requires Targets(|w.store.tickets|, x)
    ensures |r.store.tickets| == |w.store.tickets|
  {
    match x
    case PutTicket(t) => w.(store := w.store.(tickets := w.store.tickets[t.id - 1 := t]))
    case AppendLog(e) => w.(store := w.store.(logs := w.store.logs + [e]))
    case Notify(n) => w.(outbox := w.outbox + [n])
  }

  /** The failing write's number as seen from the next write on. */
  function Shift(failAt: Option<nat>): Option<nat>
  {
    match failAt
    case Some(n) => if n == 0 then None else Some(n - 1)
    case None => None
  }

  /** Performs the writes in order on the working copy; `None` when the write numbered `failAt` raises. */
  function Run(w: Work, xs: seq<Write>, failAt: Option<nat>): (r: Option<Work>)
    requires forall k :: 0 <= k < |xs| ==> Targets(|w.store.tickets|, xs[k])
    ensures r.None? <==> failAt.Some? && failAt.value < |xs|
    ensures r.Some? ==> |r.value.store.tickets| == |w.store.tickets|
    decreases |xs|
  {
    if xs == [] then Some(w)
    else if failAt == Some(0) then None
    else
      var w' := Apply(w, xs[0]);
      Run(w', xs[1..], Shift(failAt))
  }

  /** The writes performed in order with none raising. */
  function ApplyAll(w: Work, xs: seq<Write>): (r: Work)
    requires forall k :: 0 <= k < |xs| ==> Targets(|w.store.tickets|, xs[k])
    ensures |r.store.tickets| == |w.store.tickets|
    decreases |xs|
  {
    if xs == [] then w else ApplyAll(Apply(w, xs[0]), xs[1..])
  }

  /** A run whose failing write lies beyond the last write is the plain sequence of writes. */
  lemma {:induction false} RunWithoutFault(w: Work, xs: seq<Write>, failAt: Option<nat>)
    requires forall k :: 0 <= k < |xs| ==> Targets(|w.store.tickets|, xs[k])
    ensures failAt.None? || failAt.value >= |xs| ==> Run(w, xs, failAt) == Some(ApplyAll(w, xs))
    decreases |xs|
  {
    if xs != [] {
      RunWithoutFault(Apply(w, xs[0]), xs[1..], Shift(failAt));
    }
  }

  /** Writing `x` first and then `xs` is writing `[x] + xs`. */
  lemma ApplyAllCons(w: Work, x: Write, xs: seq<Write>)
    requires Targets(|w.store.tickets|, x)
    requires forall k :: 0 <= k < |xs| ==> Targets(|w.store.tickets|, xs[k])
    ensures ApplyAll(w, [x] + xs) == ApplyAll(Apply(w, x), xs)
  {
    assert ([x] + xs)[0] == x;
    assert ([x] + xs)[1..] == xs;
  }

  /**
   * `DB::transaction`: the writes run on a working copy that is committed
   * only if none raises; if one raises, the store is rolled back to `st` and
   * the error propagates. (Notification pushes are always the last write
   * here, so a rolled-back transaction never has pushed one.)
   */
  function Transaction(st: Store, xs: seq<Write>, failAt: Option<nat>): (r: TxOutcome)
    requires forall k :: 0 <= k < |xs| ==> Targets(|st.tickets|, xs[k])
    ensures |r.store.tickets| == |st.tickets|
    ensures r.error.Some? <==> failAt.Some? && failAt.value < |xs|
    ensures r.error.Some? ==> r.store == st && r.outbox == [] && r.error.value == PersistenceError
    ensures r.error.None? ==> Work(r.store, r.outbox) == ApplyAll(Work(st, []), xs)
  {
    RunWithoutFault(Work(st, []), xs, failAt);
    match Run(Work(st, []), xs, failAt)
    case None => TxOutcome(st, [], Some(PersistenceError))
    case Some(w) => TxOutcome(w.store, w.outbox, None)
  }

  // ---------------------------------------------------------------------
  // updateStatus
  // ---------------------------------------------------------------------

  /**
   * The resolved_at rule of a status change from `prev` to `next`: stamped
   * with `now` on every move to RESOLVIDO (also RESOLVIDO -> RESOLVIDO),
   * cleared when leaving RESOLVIDO, untouched otherwise. Whatever the rule
   * does, it re-establishes "stamped exactly while RESOLVIDO".
   */
  function StampResolvedAt(prev: Status, next: Status, resolvedAt: Option<nat>, now: nat): (r: Option<nat>)
    ensures next == Resolvido ==> r == Some(now)
    ensures next != Resolvido && prev == Resolvido ==> r.None?
    ensures next != Resolvido && prev != Resolvido ==> r == resolvedAt
    ensures (resolvedAt.Some? <==> prev == Resolvido) ==> (r.Some? <==> next == Resolvido)
  {
    if next == Resolvido then Some(now)
    else if prev == Resolvido then None
    else resolvedAt
  }

  /** The ticket row after the status change (before the save decides on updated_at). */
  function Transitioned(t: Ticket, novo: Status, now: nat): Ticket
  {
    t.(status := novo, resolvedAt := StampResolvedAt(t.status, novo, t.resolvedAt, now))
  }

  /** The writes of updateStatus: the ticket update (skipped by Eloquent when clean), the log insert, and the notification on RESOLVIDO. */
  function StatusWrites(st: Store, id: nat, novo: Status, user: User, now: nat): (xs: seq<Write>)
    requires 1 <= id <= |st.tickets| && st.tickets[id - 1].id == id
    ensures forall k :: 0 <= k < |xs| ==> Targets(|st.tickets|, xs[k])
  {
    var t := st.tickets[id - 1];
    var entry := LogEntry(|st.logs| + 1, id, t.status, novo, user.id, now);
    TicketPart(t, Transitioned(t, novo, now), now) + [AppendLog(entry)] + NotifyPart(novo, id, t.solicitanteId)
  }

  /**
   * `TicketService::updateStatus`: inside one transaction, sets the status,
   * applies the resolved_at rule, appends exactly one log entry
   * `de = previous status, para = novo, user_id = actor` (also when the
   * status does not change; there is no transition graph) and, on
   * RESOLVIDO, notifies the requester. Either all of it is committed or,
   * when a write raises, nothing is.
   */
  function UpdateStatus(st: Store, id: nat, novo: Status, user: User, now: nat, failAt: Option<nat>): (r: TxOutcome)
    requires 1 <= id <= |st.tickets| && st.tickets[id - 1].id == id
    ensures |r.store.tickets| == |st.tickets|
    ensures failAt.None? ==> r.error.None?
    ensures r.error.Some? ==> r.store == st && r.outbox == [] && r.error.value == PersistenceError
    ensures r.error.None? ==>
      var t := st.tickets[id - 1];
      var t' := r.store.tickets[id - 1];
      && |r.store.tickets| == |st.tickets|
      && t'.status == novo
      && (novo == Resolvido ==> t'.resolvedAt == Some(now))
      && (novo != Resolvido && t.status == Resolvido ==> t'.resolvedAt.None?)
      && (novo != Resolvido && t.status != Resolvido ==> t'.resolvedAt == t.resolvedAt)
      && t'.(status := t.status, resolvedAt := t.resolvedAt, updatedAt := t.updatedAt) == t
      && t'.updatedAt == (if t'.(updatedAt := t.updatedAt) == t then t.updatedAt else now)
      && (forall j :: 0 <= j < |st.tickets| && j != id - 1 ==> r.store.tickets[j] == st.tickets[j])
      && r.store.logs == st.logs + [LogEntry(|st.logs| + 1, id, t.status, novo, user.id, now)]
      && r.outbox == (if novo == Resolvido then [TicketResolved(id, t.solicitanteId)] else [])
  {
    StatusWritesCommit(st, id, novo, user, now);
    Transaction(st, StatusWrites(st, id, novo, user, now), failAt)
  }

  /** Writing `xs` and then `ys` is writing `xs + ys`. */
  lemma {:induction false} ApplyAllConcat(w: Work, xs: seq<Write>, ys: seq<Write>)
    requires forall k :: 0 <= k < |xs| ==> Targets(|w.store.tickets|, xs[k])
    requires forall k :: 0 <= k < |ys| ==> Targets(|w.store.tickets|, ys[k])
    ensures ApplyAll(w, xs + ys) == ApplyAll(ApplyAll(w, xs), ys)
    decreases |xs|
  {
    if xs == [] {
      assert xs + ys == ys;
    } else {
      assert (xs + ys)[0] == xs[0];
      assert (xs + ys)[1..] == xs[1..] + ys;
      ApplyAllConcat(Apply(w, xs[0]), xs[1..], ys);
    }
  }

  lemma ApplyAllSingle(w: Work, x: Write)
    requires Targets(|w.store.tickets|, x)
    ensures ApplyAll(w, [x]) == Apply(w, x)
  {
    assert [x][1..] == [];
  }

  /** The three parts of the updateStatus writes. */
  function TicketPart(t: Ticket, t': Ticket, now: nat): seq<Write>
  {
    if t' == t then [] else [PutTicket(Saved(t, t', now))]
  }

  function NotifyPart(novo: Status, id: nat, recipient: UserId): seq<Write>
  {
    if novo == Resolvido then [Notify(TicketResolved(id, recipient))] else []
  }

  lemma TicketPartEffect(st: Store, id: nat, t': Ticket, now: nat)
    requires 1 <= id <= |st.tickets| && t'.id == id
    ensures var t := st.tickets[id - 1];
      var w := ApplyAll(Work(st, []), TicketPart(t, t', now));
      && w.store.tickets == st.tickets[id - 1 := Saved(t, t', now)]
      && w.store.logs == st.logs && w.outbox == []
  {
    var t := st.tickets[id - 1];
    if t' != t {
      ApplyAllSingle(Work(st, []), PutTicket(Saved(t, t', now)));
    } else {
      assert st.tickets[id - 1 := t] == st.tickets;
    }
  }

  /** What the updateStatus writes leave behind when none raises. */
  lemma StatusWritesCommit(st: Store, id: nat, novo: Status, user: User, now: nat)
    requires 1 <= id <= |st.tickets| && st.tickets[id - 1].id == id
    ensures var t := st.tickets[id - 1];
      var w := ApplyAll(Work(st, []), StatusWrites(st, id, novo, user, now));
      && w.store.tickets == st.tickets[id - 1 := Saved(t, Transitioned(t, novo, now), now)]
      && w.store.logs == st.logs + [LogEntry(|st.logs| + 1, id, t.status, novo, user.id, now)]
      && w.outbox == (if novo == Resolvido then [TicketResolved(id, t.solicitanteId)] else [])
  {
    var t := st.tickets[id - 1];
    var t' := Transitioned(t, novo, now);
    var entry := LogEntry(|st.logs| + 1, id, t.status, novo, user.id, now);
    var p1 := TicketPart(t, t', now);
    var p3 := NotifyPart(novo, id, t.solicitanteId);
    var w0 := Work(st, []);
    var xs := StatusWrites(st, id, novo, user, now);
    assert xs == (p1 + [AppendLog(entry)]) + p3;
    var w1 := ApplyAll(w0, p1);
    TicketPartEffect(st, id, t', now);
    var w2 := Apply(w1, AppendLog(entry));
    assert ApplyAll(w0, p1 + [AppendLog(entry)]) == w2 by {
      ApplyAllConcat(w0, p1, [AppendLog(entry)]);
      ApplyAllSingle(w1, AppendLog(entry));
    }
    var w3 := ApplyAll(w2, p3);
    assert ApplyAll(w0, xs) == w3 by {
      ApplyAllConcat(w0, p1 + [AppendLog(entry)], p3);
    }
    assert w3.store.tickets == w2.store.tickets && w3.store.logs == w2.store.logs
        && w3.outbox == (if novo == Resolvido then [TicketResolved(id, t.solicitanteId)] else []) by {
      if novo == Resolvido {
        assert p3 == [Notify(TicketResolved(id, t.solicitanteId))];
        ApplyAllSingle(w2, p3[0]);
      } else {
        assert p3 == [];
        assert w3 == w2;
      }
    }
  }

  // ---------------------------------------------------------------------
  // create, update, delete
  // ---------------------------------------------------------------------

  /** The validated creation data; `status` and `solicitanteId` are whatever the caller tried to set. */
  datatype NewTicket = NewTicket(
    titulo: string,
    descricao: string,
    prioridade: Priority,
    responsavelId: Option<UserId>,
    status: Option<Status>,
    solicitanteId: Option<UserId>)

  /**
   * `TicketService::create`: inserts a ticket that is ABERTO and belongs to
   * the creator whatever the data says, unresolved, with the next id; it
   * writes no log entry and touches no other ticket.
   */
  function Create(st: Store, data: NewTicket, creator: User, now: nat): (r: (Store, Ticket))
    ensures var (st', t) := r;
      && t.status == Aberto
      && t.solicitanteId == creator.id
      && t.resolvedAt.None?
      && t.deletedAt.None?
      && t.id == |st.tickets| + 1
      && t.titulo == data.titulo && t.descricao == data.descricao && t.prioridade == data.prioridade
      && t.responsavelId == data.responsavelId
      && t.createdAt == now && t.updatedAt == now
      && st'.tickets == st.tickets + [t]
      && st'.logs == st.logs
  {
    var t := Ticket(|st.tickets| + 1, data.titulo, data.descricao, Aberto, data.prioridade,
                    creator.id, data.responsavelId, None, now, now, None);
    (st.(tickets := st.tickets + [t]), t)
  }

  /** The validated fields of a partial update; `None` means the key was not sent, `Some(None)` an explicit null assignee. */
  datatype UpdateData = UpdateData(
    titulo: Option<string>,
    descricao: Option<string>,
    prioridade: Option<Priority>,
    responsavelId: Option<Option<UserId>>)

  /**
   * The service's own assignee guard: a non-null `responsavel_id` from a
   * non-admin is silently dropped (PHP `isset` is false for null, so an
   * explicit null is kept).
   */
  function GuardAssignee(data: UpdateData, actor: User): (r: UpdateData)
    ensures r.(responsavelId := data.responsavelId) == data
    ensures r.responsavelId.Some? && r.responsavelId.value.Some? ==> IsAdmin(actor)
    ensures IsAdmin(actor) || data.responsavelId.None? || data.responsavelId.value.None? ==> r == data
    ensures !IsAdmin(actor) && data.responsavelId.Some? && data.responsavelId.value.Some? ==> r.responsavelId.None?
  {
    if data.responsavelId.Some? && data.responsavelId.value.Some? && !IsAdmin(actor)
    then data.(responsavelId := None)
    else data
  }

  function Pick<T>(given: Option<T>, current: T): T
  {
    if given.Some? then given.value else current
  }

  /**
   * `TicketService::update`: applies the supplied fields after the assignee
   * guard and saves. The status, resolved_at, requester and creation time
   * never change, no log entry is written, and only an admin can put a user
   * into `responsavel_id`.
   */
  function Update(st: Store, id: nat, data: UpdateData, actor: User, now: nat): (r: Store)
    requires 1 <= id <= |st.tickets| && st.tickets[id - 1].id == id
    ensures |r.tickets| == |st.tickets| && r.logs == st.logs
    ensures forall j :: 0 <= j < |st.tickets| && j != id - 1 ==> r.tickets[j] == st.tickets[j]
    ensures var t, t' := st.tickets[id - 1], r.tickets[id - 1];
      && t'.id == t.id && t'.status == t.status && t'.resolvedAt == t.resolvedAt
      && t'.solicitanteId == t.solicitanteId && t'.createdAt == t.createdAt && t'.deletedAt == t.deletedAt
      && (data.titulo.Some? ==> t'.titulo == data.titulo.value)
      && (data.titulo.None? ==> t'.titulo == t.titulo)
      && (data.descricao.Some? ==> t'.descricao == data.descricao.value)
      && (data.descricao.None? ==> t'.descricao == t.descricao)
      && (data.prioridade.Some? ==> t'.prioridade == data.prioridade.value)
      && (data.prioridade.None? ==> t'.prioridade == t.prioridade)
      && (t'.responsavelId != t.responsavelId ==> data.responsavelId == Some(t'.responsavelId))
      && (t'.responsavelId != t.responsavelId && t'.responsavelId.Some? ==> IsAdmin(actor))
      && (IsAdmin(actor) && data.responsavelId.Some? ==> t'.responsavelId == data.responsavelId.value)
      && (data.responsavelId.Some? && (IsAdmin(actor) || data.responsavelId.value.None?) ==> t'.responsavelId == data.responsavelId.value)
      && (!IsAdmin(actor) && data.responsavelId.Some? && data.responsavelId.value.Some? ==> t'.responsavelId == t.responsavelId)
      && t'.updatedAt == (if t'.(updatedAt := t.updatedAt) == t then t.updatedAt else now)
  {
    var d := GuardAssignee(data, actor);
    var t := st.tickets[id - 1];
    var t' := t.(titulo := Pick(d.titulo, t.titulo),
                 descricao := Pick(d.descricao, t.descricao),
                 prioridade := Pick(d.prioridade, t.prioridade),
                 responsavelId := Pick(d.responsavelId, t.responsavelId));
    st.(tickets := st.tickets[id - 1 := Saved(t, t', now)])
  }

  /** `TicketService::delete`: a soft delete; the row and its log stay, but the ticket is no longer live. */
  function Delete(st: Store, id: nat, now: nat): (r: Store)
    requires 1 <= id <= |st.tickets|
    ensures !Live(r, id)
    ensures |r.tickets| == |st.tickets| && r.logs == st.logs
    ensures forall j :: 0 <= j < |st.tickets| && j != id - 1 ==> r.tickets[j] == st.tickets[j]
    ensures r.tickets[id - 1].(deletedAt := None, updatedAt := 0) == st.tickets[id - 1].(deletedAt := None, updatedAt := 0)
    ensures r.tickets[id - 1].deletedAt == Some(now) && r.tickets[id - 1].updatedAt == now
  {
    var t := st.tickets[id - 1];
    st.(tickets := st.tickets[id - 1 := t.(deletedAt := Some(now), updatedAt := now)])
  }

  // ---------------------------------------------------------------------
  // The store invariant is kept by every operation
  // ---------------------------------------------------------------------

  lemma CreatePreservesValid(st: Store, data: NewTicket, creator: User, now: nat)
    requires Valid(st)
    ensures Valid(Create(st, data, creator, now).0)
  {
    var (st', t) := Create(st, data, creator, now);
    assert st'.logs == st.logs;
    forall i | 0 <= i < |st'.tickets|
      ensures Chain(Aberto, LogsOf(st'.logs, i + 1), st'.tickets[i].status)
    {
      if i < |st.tickets| {
        assert st'.tickets[i] == st.tickets[i];
      } else {
        LogsOfNone(st.logs, t.id);
        assert st'.tickets[i] == t;
      }
    }
  }

  /** Appending an entry that starts at a ticket's current status and moving that ticket to the entry's `para` keeps every ticket's log a replay. */
  lemma ChainsAfterTransition(tickets: seq<Ticket>, logs: seq<LogEntry>, tickets': seq<Ticket>, e: LogEntry)
    requires forall i :: 0 <= i < |tickets| ==> Chain(Aberto, LogsOf(logs, i + 1), tickets[i].status)
    requires |tickets'| == |tickets| && 1 <= e.ticketId <= |tickets|
    requires e.de == tickets[e.ticketId - 1].status && tickets'[e.ticketId - 1].status == e.para
    requires forall j :: 0 <= j < |tickets| && j != e.ticketId - 1 ==> tickets'[j].status == tickets[j].status
    ensures forall i :: 0 <= i < |tickets'| ==> Chain(Aberto, LogsOf(logs + [e], i + 1), tickets'[i].status)
  {
    forall i | 0 <= i < |tickets'|
      ensures Chain(Aberto, LogsOf(logs + [e], i + 1), tickets'[i].status)
    {
      ChainAfterTransitionAt(logs, e, i + 1, tickets[i].status, tickets'[i].status);
    }
  }

  /** One ticket's log after the append: extended by the entry if it is the moved ticket, unchanged otherwise. */
  lemma ChainAfterTransitionAt(logs: seq<LogEntry>, e: LogEntry, id: nat, before: Status, after: Status)
    requires Chain(Aberto, LogsOf(logs, id), before)
    requires e.ticketId == id ==> e.de == before && e.para == after
    requires e.ticketId != id ==> after == before
    ensures Chain(Aberto, LogsOf(logs + [e], id), after)
  {
    LogsOfAppend(logs, e, id);
    if e.ticketId == id {
      ChainExtend(Aberto, LogsOf(logs, id), before, e);
    } else {
      assert LogsOf(logs, id) + [] == LogsOf(logs, id);
    }
  }

  /** After a committed status change every ticket still sits at its position and keeps resolved_at in step with RESOLVIDO. */
  lemma StatusChangeKeepsTickets(st: Store, id: nat, novo: Status, user: User, now: nat, failAt: Option<nat>)
    requires Valid(st) && 1 <= id <= |st.tickets|
    ensures var r := UpdateStatus(st, id, novo, user, now, failAt);
      r.error.None? ==>
        && Numbered(r.store)
        && (forall i :: 0 <= i < |r.store.tickets| ==> ResolvedConsistent(r.store.tickets[i]))
  {
    var r := UpdateStatus(st, id, novo, user, now, failAt);
    if r.error.None? {
      assert ResolvedConsistent(st.tickets[id - 1]);
      forall i | 0 <= i < |r.store.tickets|
        ensures r.store.tickets[i].id == i + 1 && ResolvedConsistent(r.store.tickets[i])
      {
        if i != id - 1 {
          assert r.store.tickets[i] == st.tickets[i];
        }
      }
    }
  }

  /** After a committed status change the log table is still numbered and refers only to existing tickets. */
  lemma StatusChangeKeepsLogs(st: Store, id: nat, novo: Status, user: User, now: nat, failAt: Option<nat>)
    requires Valid(st) && 1 <= id <= |st.tickets|
    ensures var r := UpdateStatus(st, id, novo, user, now, failAt);
      r.error.None? ==>
        && (forall k :: 0 <= k < |r.store.logs| ==> r.store.logs[k].id == k + 1)
        && (forall k :: 0 <= k < |r.store.logs| ==> 1 <= r.store.logs[k].ticketId <= |r.store.tickets|)
  {
    var r := UpdateStatus(st, id, novo, user, now, failAt);
    if r.error.None? {
      forall k | 0 <= k < |r.store.logs|
        ensures r.store.logs[k].id == k + 1 && 1 <= r.store.logs[k].ticketId <= |r.store.tickets|
      {
        if k < |st.logs| {
          assert r.store.logs[k] == st.logs[k];
        }
      }
    }
  }

  lemma UpdateStatusPreservesValid(st: Store, id: nat, novo: Status, user: User, now: nat, failAt: Option<nat>)
    requires Valid(st) && 1 <= id <= |st.tickets|
    ensures Valid(UpdateStatus(st, id, novo, user, now, failAt).store)
  {
    var r := UpdateStatus(st, id, novo, user, now, failAt);
    if r.error.None? {
      StatusChangeKeepsTickets(st, id, novo, user, now, failAt);
      StatusChangeKeepsLogs(st, id, novo, user, now, failAt);
      var t := st.tickets[id - 1];
      var e := LogEntry(|st.logs| + 1, id, t.status, novo, user.id, now);
      ChainsAfterTransition(st.tickets, st.logs, r.store.tickets, e);
    }
  }

  lemma UpdatePreservesValid(st: Store, id: nat, data: UpdateData, actor: User, now: nat)
    requires Valid(st) && 1 <= id <= |st.tickets|
    ensures Valid(Update(st, id, data, actor, now))
  {
    var st' := Update(st, id, data, actor, now);
    forall i | 0 <= i < |st'.tickets|
      ensures Chain(Aberto, LogsOf(st'.logs, i + 1), st'.tickets[i].status)
    {
      assert st'.tickets[i].status == st.tickets[i].status;
    }
  }

  lemma DeletePreservesValid(st: Store, id: nat, now: nat)
    requires Valid(st) && 1 <= id <= |st.tickets|
    ensures Valid(Delete(st, id, now))
  {
    var st' := Delete(st, id, now);
    forall i | 0 <= i < |st'.tickets|
      ensures Chain(Aberto, LogsOf(st'.logs, i + 1), st'.tickets[i].status)
    {
      assert st'.tickets[i].status == st.tickets[i].status;
    }
  }
}

=== FILE: text.dfy ===
/**
 * String helpers used on both sides: substring containment (the backend's
 * `LIKE %busca%` search) and ECMAScript `String.prototype.trim` (the client's
 * pre-submit validators).
 */
module Text {

  /** `needle` occurs in `hay` starting at index `i`. */
  ghost predicate OccursAt(hay: string, needle: string, i: int)
  {
    0 <= i && i + |needle| <= |hay| && hay[i..i + |needle|] == needle
  }

  /** Substring containment, computed by trying every start position in turn. */
  function Contains(hay: string, needle: string): bool
    decreases |hay|
  {
    if |needle| > |hay| then false
    else if hay[..|needle|] == needle then true
    else Contains(hay[1..], needle)
  }

  /** `Contains` holds exactly when the needle occurs at some position of the haystack. */
  lemma {:induction false} ContainsIffOccurs(hay: string, needle: string)
    ensures Contains(hay, needle) <==> exists i :: OccursAt(hay, needle, i)
    decreases |hay|
  {
    if |needle| > |hay| {
      assert forall i :: !OccursAt(hay, needle, i);
    } else if hay[..|needle|] == needle {
      assert OccursAt(hay, needle, 0);
    } else {
      ContainsIffOccurs(hay[1..], needle);
      if Contains(hay[1..], needle) {
        var i :| OccursAt(hay[1..], needle, i);
        assert hay[1..][i..i + |needle|] == hay[i + 1..i + 1 + |needle|];
        assert OccursAt(hay, needle, i + 1);
      } else {
        forall i | OccursAt(hay, needle, i)
          ensures false
        {
          if i > 0 {
            assert hay[1..][i - 1..i - 1 + |needle|] == hay[i..i + |needle|];
            assert OccursAt(hay[1..], needle, i - 1);
          }
        }
      }
    }
  }

  /** The empty string occurs in every string (an empty search matches every ticket). */
  lemma EmptyNeedleAlwaysContained(hay: string)
    ensures Contains(hay, "")
  {
  }

  /** The ECMAScript WhiteSpace and LineTerminator code points that `trim` removes. */
  predicate IsJsSpace(c: char)
  {
    || ('\U{9}' <= c <= '\U{D}')        // tab, line feed, vertical tab, form feed, carriage return
    || c == '\U{20}' || c == '\U{A0}' || c == '\U{1680}'
    || ('\U{2000}' <= c <= '\U{200A}')  // the Unicode space separators en quad .. hair space
    || c == '\U{2028}' || c == '\U{2029}' // line and paragraph separators
    || c == '\U{202F}' || c == '\U{205F}' || c == '\U{3000}'
    || c == '\U{FEFF}'                   // byte order mark
  }

  /** Every character of `s` is white space. */
  ghost predicate AllSpace(s: string)
  {
    forall k :: 0 <= k < |s| ==> IsJsSpace(s[k])
  }

  /** The first position at or after `i` that does not hold white space, or `|s|` when there is none. */
  function SkipSpace(s: string, i: nat): (j: nat)
    requires i <= |s|
    ensures i <= j <= |s|
    ensures forall k :: i <= k < j ==> IsJsSpace(s[k])
    ensures j < |s| ==> !IsJsSpace(s[j])
    decreases |s| - i
  {
    if i == |s| || !IsJsSpace(s[i]) then i else SkipSpace(s, i + 1)
  }

  /** The end of `s[lo..j]` once its trailing white space is dropped. */
  function SkipSpaceBack(s: string, lo: nat, j: nat): (e: nat)
    requires lo <= j <= |s|
    ensures lo <= e <= j
    ensures forall k :: e <= k < j ==> IsJsSpace(s[k])
    ensures e > lo ==> !IsJsSpace(s[e - 1])
    decreases j
  {
    if j == lo || !IsJsSpace(s[j - 1]) then j else SkipSpaceBack(s, lo, j - 1)
  }

  /**
   * `String.prototype.trim`: a slice of `s` such that everything before and
   * after it is white space and it neither starts nor ends with white space.
   */
  function Trim(s: string): (r: string)
    ensures exists lo, hi ::
              && 0 <= lo <= hi <= |s| && r == s[lo..hi]
              && (forall k :: 0 <= k < lo ==> IsJsSpace(s[k]))
              && (forall k :: hi <= k < |s| ==> IsJsSpace(s[k]))
    ensures r != [] ==> !IsJsSpace(r[0]) && !IsJsSpace(r[|r| - 1])
  {
    var lo := SkipSpace(s, 0);
    var hi := SkipSpaceBack(s, lo, |s|);
    s[lo..hi]
  }

  /** Trimming twice is trimming once. */
  lemma TrimIdempotent(s: string)
    ensures Trim(Trim(s)) == Trim(s)
  {
    var r := Trim(s);
    if r != [] {
      assert SkipSpace(r, 0) == 0;
      assert SkipSpaceBack(r, 0, |r|) == |r|;
      assert r[0..|r|] == r;
    }
  }

  /** A string trims to empty exactly when it is all white space (JavaScript's `!s.trim()`). */
  lemma TrimEmptyIffAllSpace(s: string)
    ensures Trim(s) == [] <==> AllSpace(s)
  {
    var lo := SkipSpace(s, 0);
    var hi := SkipSpaceBack(s, lo, |s|);
    assert Trim(s) == s[lo..hi];
    if lo < |s| {
      assert !IsJsSpace(s[lo]);
      assert hi > lo;
    }
  }
}

=== FILE: ticket_detail.dfy ===
/**
 * The ticket detail screen: who sees the edit, status and delete buttons,
 * which statuses the status picker offers, and what the edit form starts
 * with.
 */
module TicketDetail {
  import opened Outcomes
  import opened Enums
  import opened Domain
  import Policy
  import Requests
  import Service
  import TicketForm
  import opened ClientConstants

  /** The signed-in user as the client keeps it; absent when nobody is signed in. */
  datatype SessionUser = SessionUser(id: nat, role: string)

  /** A ticket as the screen receives it from `GET /tickets/{id}`; the requester may be absent. */
  datatype ShownTicket = ShownTicket(
    id: nat,
    titulo: string,
    descricao: string,
    status: string,
    prioridade: string,
    solicitanteId: Option<nat>)

  /** The API's rendering of a stored ticket, with the requester loaded. */
  function Shown(t: Ticket): ShownTicket
  {
    ShownTicket(t.id, t.titulo, t.descricao, StatusValue(t.status), PriorityValue(t.prioridade), Some(t.solicitanteId))
  }

  /** `user?.id`: undefined when nobody is signed in. */
  function UserIdOf(user: Option<SessionUser>): Option<nat>
  {
    if user.Some? then Some(user.value.id) else None
  }

  /**
   * `isOwnerOrAdmin`: a ticket is loaded, and the user is an admin or has the
   * requester's id. JavaScript's `===` holds between two undefined values, so
   * a missing user and a missing requester also match.
   */
  function IsOwnerOrAdmin(user: Option<SessionUser>, ticket: Option<ShownTicket>): (b: bool)
    ensures b ==> ticket.Some?
  {
    ticket.Some? && ((user.Some? && user.value.role == "admin") || UserIdOf(user) == ticket.value.solicitanteId)
  }

  /** Which of the three action buttons the screen shows. */
  datatype Capabilities = Capabilities(canEdit: bool, canChangeStatus: bool, canDelete: bool)

  /** `canEdit`, `canChangeStatus` and `canDelete`: all three are the same flag. */
  function CapabilitiesOf(user: Option<SessionUser>, ticket: Option<ShownTicket>): (c: Capabilities)
    ensures c.canEdit == c.canChangeStatus == c.canDelete == IsOwnerOrAdmin(user, ticket)
  {
    var b := IsOwnerOrAdmin(user, ticket);
    Capabilities(b, b, b)
  }

  /**
   * For a signed-in user looking at a ticket rendered by the API, each button
   * is shown exactly when the server's policy allows the matching call.
   */
  lemma CapabilitiesMirrorPolicy(u: User, t: Ticket)
    ensures var c := CapabilitiesOf(Some(SessionUser(u.id, u.role)), Some(Shown(t)));
      && c.canEdit == Policy.Update(u, t)
      && c.canChangeStatus == Policy.UpdateStatus(u, t)
      && c.canDelete == Policy.Delete(u, t)
  {
  }

  /** With nobody signed in, a ticket without a requester still shows every button. */
  lemma MissingUserMatchesMissingRequester(t: ShownTicket)
    ensures IsOwnerOrAdmin(None, Some(t)) <==> t.solicitanteId.None?
  {
  }

  /** The options of a list that have a value and differ from `current` (`undefined` when no ticket is loaded), in list order. */
  function KeepChoices(opts: seq<OptionItem>, current: Option<string>): (r: seq<OptionItem>)
    ensures forall o :: o in r <==> o in opts && o.value != "" && Some(o.value) != current
    ensures |r| <= |opts|
  {
    if opts == [] then []
    else
      var rest := KeepChoices(opts[1..], current);
      if opts[0].value != "" && Some(opts[0].value) != current then [opts[0]] + rest else rest
  }

  /** `statusOptions`: the status picker's entries. */
  function StatusChoices(ticket: Option<ShownTicket>): seq<OptionItem>
  {
    KeepChoices(StatusOptions, if ticket.Some? then Some(ticket.value.status) else None)
  }

  function StatusItem(s: Status): OptionItem
  {
    OptionItem(StatusValue(s), StatusLabel(s))
  }

  /** One step of the filter: the head is kept or dropped, then the rest is filtered. */
  lemma KeepChoicesStep(opts: seq<OptionItem>, current: Option<string>)
    requires opts != []
    ensures KeepChoices(opts, current) ==
      (if opts[0].value != "" && Some(opts[0].value) != current then [opts[0]] else []) + KeepChoices(opts[1..], current)
  {
  }

  /**
   * For a ticket in a known status the picker offers exactly the two other
   * statuses, in declaration order.
   */
  lemma StatusChoicesForStatus(t: ShownTicket, s: Status)
    requires t.status == StatusValue(s)
    ensures StatusChoices(Some(t)) == match s
      case Aberto => [StatusItem(EmAndamento), StatusItem(Resolvido)]
      case EmAndamento => [StatusItem(Aberto), StatusItem(Resolvido)]
      case Resolvido => [StatusItem(Aberto), StatusItem(EmAndamento)]
  {
    var cur := Some(t.status);
    var o := StatusOptions;
    assert o[1..][1..][1..][1..] == [];
    KeepChoicesStep(o, cur);
    KeepChoicesStep(o[1..], cur);
    KeepChoicesStep(o[1..][1..], cur);
    KeepChoicesStep(o[1..][1..][1..], cur);
  }

  /**
   * Every status the picker offers names a status case and differs from the
   * current one, so choosing it is a real transition.
   */
  lemma StatusChoicesAreTransitions(t: ShownTicket, s: Status)
    requires t.status == StatusValue(s)
    ensures forall o :: o in StatusChoices(Some(t)) ==> StatusTryFrom(o.value).Some? && o.value != t.status
  {
    StatusChoicesForStatus(t, s);
  }

  /** The body the picker sends for a status case passes the status request unchanged. */
  lemma ChosenStatusAccepted(v: string)
    requires StatusTryFrom(v).Some?
    ensures Requests.ValidateStatus(map["status" := Requests.JStr(v)]) == Ok(v)
  {
  }

  /** With no ticket loaded the picker offers all three statuses. */
  lemma StatusChoicesWithoutTicket()
    ensures StatusChoices(None) == StatusOptions[1..]
  {
    assert StatusOptions[1..][1..][1..][1..] == [];
  }

  /** `startEditing`: the edit form starts from the shown ticket's title, description and priority. */
  function StartEditing(t: ShownTicket): TicketForm.Payload
  {
    TicketForm.Payload(t.titulo, t.descricao, t.prioridade)
  }

  /**
   * Saving the edit form untouched: the body never carries `responsavel_id`,
   * so the assignee gate passes for anyone, and once it validates the
   * service leaves the store exactly as it was (the save is clean, so not
   * even `updated_at` moves).
   */
  lemma UntouchedEditIsNoOp(st: Store, id: nat, u: User, users: set<UserId>, now: nat)
    requires 1 <= id <= |st.tickets| && st.tickets[id - 1].id == id
    ensures var body := TicketForm.PayloadBody(StartEditing(Shown(st.tickets[id - 1])));
      && Requests.AuthorizeUpdate(body, u)
      && (Requests.ValidateUpdate(body, users).Ok? ==>
            Service.Update(st, id, Requests.ValidateUpdate(body, users).value, u, now) == st)
  {
    var t := st.tickets[id - 1];
    var body := TicketForm.PayloadBody(StartEditing(Shown(t)));
    var r := Requests.ValidateUpdate(body, users);
    if r.Ok? {
      PriorityValueRoundTrip(t.prioridade);
      var r' := Service.Update(st, id, r.value, u, now);
      assert r'.tickets[id - 1] == t;
      assert r'.tickets == st.tickets;
    }
  }

  lemma PriorityValueRoundTrip(p: Priority)
    ensures PriorityTryFrom(PriorityValue(p)) == Some(p)
  {
  }
}

=== FILE: ticket_form.dfy ===
/**
 * The create/edit ticket screen: the form's initial values, the pre-submit
 * checks (in order: title too short, title too long, description too short),
 * and the payload it sends.
 */
module TicketForm {
  import opened Outcomes
  import opened Text
  import Enums
  import Domain
  import Requests

  const TituloMinMessage := "O t\U{ED}tulo deve ter no m\U{ED}nimo 5 caracteres."
  const TituloMaxMessage := "O t\U{ED}tulo deve ter no m\U{E1}ximo 120 caracteres."
  const DescricaoMinMessage := "A descri\U{E7}\U{E3}o deve ter no m\U{ED}nimo 20 caracteres."

  /** The ticket passed in the route when the screen is opened for editing. */
  datatype EditTicket = EditTicket(id: nat, titulo: string, descricao: string, prioridade: string)

  /** The form's state: the three editable fields. */
  datatype Form = Form(titulo: string, descricao: string, prioridade: string)

  /** JavaScript `s || fallback` on a string: only the empty string is falsy. */
  function OrElse(s: string, fallback: string): string
  {
    if s == "" then fallback else s
  }

  /**
   * The initial state: empty fields and priority MEDIA for a new ticket; the
   * edited ticket's fields when editing (MEDIA if its priority is empty).
   */
  function InitialForm(edit: Option<EditTicket>): (f: Form)
    ensures f.prioridade != ""
    ensures edit.None? ==> f == Form("", "", "MEDIA")
    ensures edit.Some? ==> f.titulo == edit.value.titulo && f.descricao == edit.value.descricao
    ensures edit.Some? && edit.value.prioridade != "" ==> f.prioridade == edit.value.prioridade
  {
    match edit
    case None => Form("", "", "MEDIA")
    case Some(t) => Form(OrElse(t.titulo, ""), OrElse(t.descricao, ""), OrElse(t.prioridade, "MEDIA"))
  }

  /** The body the screen sends: trimmed title and description, the chosen priority, nothing else. */
  datatype Payload = Payload(titulo: string, descricao: string, prioridade: string)

  datatype Submission =
    | Alert(message: string)                // an error dialog; no request is sent
    | SendCreate(payload: Payload)          // ticketService.create
    | SendUpdate(id: nat, payload: Payload) // ticketService.update

  /**
   * `handleSubmit`: the first failing check decides the message and nothing
   * is sent; otherwise the trimmed payload goes to update when editing and to
   * create otherwise.
   */
  function Submit(f: Form, edit: Option<EditTicket>): (a: Submission)
    ensures a.Alert? <==> !(5 <= |Trim(f.titulo)| <= 120 && |Trim(f.descricao)| >= 20)
    ensures |Trim(f.titulo)| < 5 ==> a == Alert(TituloMinMessage)
    ensures 120 < |Trim(f.titulo)| ==> a == Alert(TituloMaxMessage)
    ensures 5 <= |Trim(f.titulo)| <= 120 && |Trim(f.descricao)| < 20 ==> a == Alert(DescricaoMinMessage)
    ensures !a.Alert? ==> a.payload == Payload(Trim(f.titulo), Trim(f.descricao), f.prioridade)
    ensures a.SendUpdate? <==> !a.Alert? && edit.Some?
    ensures a.SendUpdate? ==> a.id == edit.value.id
  {
    var titulo := Trim(f.titulo);
    var descricao := Trim(f.descricao);
    if |titulo| < 5 then Alert(TituloMinMessage)
    else if |titulo| > 120 then Alert(TituloMaxMessage)
    else if |descricao| < 20 then Alert(DescricaoMinMessage)
    else
      var payload := Payload(titulo, descricao, f.prioridade);
      match edit
      case Some(t) => SendUpdate(t.id, payload)
      case None => SendCreate(payload)
  }

  /** The JSON body of a payload: exactly the keys titulo, descricao and prioridade. */
  function PayloadBody(p: Payload): (b: Requests.Body)
    ensures b.Keys == {"titulo", "descricao", "prioridade"}
    ensures "status" !in b && "responsavel_id" !in b
  {
    map["titulo" := Requests.JStr(p.titulo), "descricao" := Requests.JStr(p.descricao),
        "prioridade" := Requests.JStr(p.prioridade)]
  }

  /**
   * A form the screen lets through, with a priority picked from the three
   * options, passes the server's update request for any user: the assignee
   * gate never fires and every field rule holds.
   */
  lemma SubmittedEditPassesServer(f: Form, t: EditTicket, u: Domain.User, users: set<Domain.UserId>)
    requires Submit(f, Some(t)).SendUpdate?
    requires Enums.PriorityTryFrom(f.prioridade).Some?
    ensures var body := PayloadBody(Submit(f, Some(t)).payload);
      Requests.AuthorizeUpdate(body, u) && Requests.ValidateUpdate(body, users).Ok?
  {
  }

  /** Submitting the payload's own values again sends the same request: the payload is already in normal form. */
  lemma ResubmitIsStable(f: Form, edit: Option<EditTicket>)
    requires !Submit(f, edit).Alert?
    ensures var p := Submit(f, edit).payload;
      Submit(Form(p.titulo, p.descricao, p.prioridade), edit) == Submit(f, edit)
  {
    TrimIdempotent(f.titulo);
    TrimIdempotent(f.descricao);
  }

  /** A title of white space only is refused with the minimum-length message, however long it is. */
  lemma BlankTitleRefused(f: Form, edit: Option<EditTicket>)
    requires AllSpace(f.titulo)
    ensures Submit(f, edit) == Alert(TituloMinMessage)
  {
    TrimEmptyIffAllSpace(f.titulo);
  }
}
